=== FILE: README.md ===
# Command history plugin — a Dafny model

This project models the command-history plugin of vibehistory-mcp
(`src/mcps/command-history/`). The plugin sits in front of an AI backend.
Every request goes through a list of named regular-expression rules:

- `mask` replaces a matching string outright;
- `edit` substitutes the pattern globally;
- `enrich` appends a space and the replacement.

Each request, before and after the rules, is logged as one JSON file per
command under `<sessionId>_<id>.json`. Responses are logged the same way,
tagged with the id of the latest command. Old command files are deleted once
they fall outside a retention window. Stored entries are read back filtered
and newest first.

Modules, one per source file, plus a law module for each:

- `Json` models JSON values. A value splits into its *skeleton* (the value
  with every string blanked) and its *leaves* (its strings in depth-first
  order), and the two determine it.
- `Config` (`config.ts`) models rule, storage and plugin configuration and
  the defaults.
- `Modifier` (`modifier.ts`) is the rule engine, with `ModifierLaws`. The
  regular-expression engine is a parameter (`Regex`) of three total
  functions: does a pattern compile, does it match a string, global
  replacement.
- `Listing` and `Storage` (`storage.ts`) are the store, with `StorageLaws`.
  A directory is either absent or a map from file names to files. A file is
  readable (parsed into an entry) or unreadable.
- `CommandHistory` (`index.ts`) is the plugin: configuration merge,
  `processRequest`, `processResponse` and provider info, with
  `CommandHistoryLaws`.

Each call's outside world is an explicit `Io` parameter: the fresh id the id
generator returns, the clock in milliseconds, whether the request can be
deep-copied, and whether the file write fails. The order in which a
directory is listed is a parameter `listing`, constrained only to name each
file once.

How the code's behaviour is modelled where it is easy to misread:

- A rule whose pattern does not compile throws when the walk first reaches a
  string leaf. The model throws exactly when the value has a string leaf and
  some enabled rule's pattern fails to compile.
  - The records of the rules before it stay.
  - `processRequest` then returns the original request and logs nothing.
  - The fresh id has still become the latest command id.
- When the request is a bare string, `process` discards the walk's result
  (`modifier.ts:40`), so the string comes back unmodified. The matches are
  still recorded.
- Cleanup removes the file named after each expired entry. A file whose name
  does not match its contents is therefore not the one removed. Names are
  proved to be canonical for every file the plugin writes.
- A file name fixes the session and the id as long as the id has no
  underscore, as generated ids do not. Within one session, distinct ids
  always give distinct names.

## Model

| member | source | states |
|---|---|---|
| Json.ShapeAndLeavesDetermine | src/mcps/command-history/modifier.ts:56-101 | two JSON values with the same skeleton and the same string leaves are equal, so the walk's effect is fully described by what it does to the leaves |
| Json.SkeletonLeafCount | src/mcps/command-history/modifier.ts:88-97 | the skeleton keeps the number of string leaves, so a walk that keeps the skeleton rewrites strings one for one |
| Config.DefaultConfig | src/mcps/command-history/config.ts:39-66 | the defaults: enabled, first in the chain, modifications and response saving on, file storage at `./command_history` in the home directory with 30-day retention, and two enabled mask rules: `password\s*:\s*\S+` masked to `password: [REDACTED]`, and `api[-_]?key\s*[:=]\s*\S+` masked to `api_key: [REDACTED]` |
| Config.KindOf | src/mcps/command-history/modifier.ts:75-84 | each declared `type` string selects its own branch, and exactly the other strings are unknown, kept with their tag |
| Modifier.RewriteLeaf | src/mcps/command-history/modifier.ts:66-87 | one leaf under one rule: a leaf the pattern does not match, or a rule of unknown kind, leaves it as it is; a mask gives the replacement; an edit gives the engine's global replacement; an enrich gives the leaf, a space and the replacement. What each kind means across a whole value is stated by `MaskOverwritesMatchedLeaves`, `EditIsGlobalSubstitution` and `EnrichAppends` |
| Modifier.RewriteAll | src/mcps/command-history/modifier.ts:61-87 | one rule on a list of leaves rewrites each leaf on its own, and keeps the length |
| Modifier.RuleLogRecords | src/mcps/command-history/modifier.ts:66-72 | a rule leaves at most one record per leaf, every record is that rule's kind, pattern and replacement, and there are none exactly when no leaf matches |
| Modifier.RuleLogAppend | src/mcps/command-history/modifier.ts:88-97 | records of a walk over consecutive parts are the records of the parts, in order |
| Modifier.ApplyRule | src/mcps/command-history/modifier.ts:56-101 | one rule walks arrays element by element and objects property by property; the result has the same shape, its leaves are the rewritten leaves, and one record is pushed per matching leaf in depth-first order |
| Modifier.ApplyRuleElems | src/mcps/command-history/modifier.ts:88-92 | the array walk keeps length and shape and rewrites the elements' leaves in order |
| Modifier.ApplyRuleFields | src/mcps/command-history/modifier.ts:93-97 | the object walk keeps keys and their order and rewrites the values' leaves in order |
| Modifier.RunRules | src/mcps/command-history/modifier.ts:37-41 | the rule loop only appends records and keeps the value's shape; a bare string is never changed; it throws exactly when the value has a string leaf and some enabled rule's pattern does not compile |
| Modifier.NewModifier | src/mcps/command-history/modifier.ts:19-22 | a new engine holds the given rules and no records |
| Modifier.Process | src/mcps/command-history/modifier.ts:27-44 | records start empty on every call; a falsy request is returned as it is; the rule list is unchanged; the call throws exactly when the request is truthy, holds a string and some enabled pattern fails to compile; otherwise the result has the request's shape |
| Modifier.AddRule | src/mcps/command-history/modifier.ts:106-108 | the rule is appended after all existing rules, which are kept in order |
| Modifier.WithoutName | src/mcps/command-history/modifier.ts:113-115 | the rules kept are exactly those with a different name; the list is unchanged exactly when no rule has the name |
| Modifier.RemoveRule | src/mcps/command-history/modifier.ts:113-115 | after removal a rule is in the list exactly when it was before and its name differs |
| Modifier.IndexOfName | src/mcps/command-history/modifier.ts:121 | the first position of a rule with the name, or none exactly when no rule has it |
| Modifier.SetRuleEnabled | src/mcps/command-history/modifier.ts:120-125 | only the first rule with the name gets the flag, and every other rule stays; without such a rule nothing changes |
| ModifierLaws.NoMatchNoChange | src/mcps/command-history/modifier.ts:66-87 | a rule that matches no leaf returns the value unchanged and records nothing |
| ModifierLaws.UnknownKindRecordsOnly | src/mcps/command-history/modifier.ts:68-84 | a rule of an unrecognised kind changes nothing but still records one entry per matching leaf, because the record is pushed before the kind is looked at |
| ModifierLaws.MaskOverwritesMatchedLeaves | src/mcps/command-history/modifier.ts:76-77 | a mask replaces each matching leaf wholesale with the replacement and leaves the other leaves as they were |
| ModifierLaws.EditIsGlobalSubstitution | src/mcps/command-history/modifier.ts:78-79 | an edit turns every leaf into the global substitution of the replacement for the pattern |
| ModifierLaws.EnrichAppends | src/mcps/command-history/modifier.ts:80-81 | an enrich appends a space and the replacement to each matching leaf and leaves the others |
| ModifierLaws.ApplyRuleKeepsShape | src/mcps/command-history/modifier.ts:88-100 | arrays keep their length, objects keep their keys in order, and null, booleans and numbers are untouched |
| ModifierLaws.EnabledOnly | src/mcps/command-history/modifier.ts:38 | the enabled rules, and only those |
| ModifierLaws.DisabledRulesIgnored | src/mcps/command-history/modifier.ts:37-41 | running a rule list is running its enabled rules alone, with the same value, records and throw |
| ModifierLaws.AllDisabledIsIdentity | src/mcps/command-history/modifier.ts:27-44 | with every rule disabled, the request comes back unchanged and nothing is recorded |
| ModifierLaws.RunRulesSequential | src/mcps/command-history/modifier.ts:37-41 | running `a + b` is running `b` on what `a` produced, records included, unless `a` threw |
| ModifierLaws.ChainedRules | src/mcps/command-history/modifier.ts:37-41 | the second of two rules sees the first one's output: its leaves are the composition of the two rewrites, and its records come from the rewritten leaves |
| ModifierLaws.RecordsComeFromEnabledRules | src/mcps/command-history/modifier.ts:37-41 | every record added by the loop is the record of one of the enabled rules |
| ModifierLaws.TopLevelStringUnchanged | src/mcps/command-history/modifier.ts:34-43 | a non-empty bare string comes back unchanged even when rules match it, and still collects one record per enabled matching rule, in rule order |
| ModifierLaws.StringLoop | src/mcps/command-history/modifier.ts:37-41 | on a bare string the loop keeps the string and appends the records of the enabled matching rules |
| ModifierLaws.RunRulesIsPipeline | src/mcps/command-history/modifier.ts:37-41 | on a value that is not a bare string and with valid patterns, the rule loop agrees with the flat reference `Pipeline`: each enabled rule in order rewrites the leaves the earlier rules produced, and adds one record per leaf it matches |
| ModifierLaws.ProcessIsPipeline | src/mcps/command-history/modifier.ts:27-44 | on such a truthy request `process` succeeds; its result keeps the request's shape and has the pipeline's leaves, and its records are exactly the pipeline's, grouped in rule order |
| ModifierLaws.ProcessKeepsWellFormed | src/mcps/command-history/modifier.ts:88-97 | keys are never rewritten, so a request with no repeated object key comes out of `process` with none |
| Json.SkeletonKeepsWellFormed | src/mcps/command-history/modifier.ts:93-97 | whether an object repeats a key depends only on the skeleton |
| ModifierLaws.RecordsNotCumulative | src/mcps/command-history/modifier.ts:29 | records are rebuilt on every call, so what an earlier call left has no effect |
| ModifierLaws.WithoutNameAppend | src/mcps/command-history/modifier.ts:114 | filtering by name distributes over concatenation, so the survivors keep their order |
| ModifierLaws.RemoveRuleIdempotent | src/mcps/command-history/modifier.ts:113-115 | removing a name twice is removing it once |
| ModifierLaws.RemoveAfterAdd | src/mcps/command-history/modifier.ts:106-115 | adding a rule and removing its name is removing the name alone |
| ModifierLaws.SetRuleEnabledUndo | src/mcps/command-history/modifier.ts:120-125 | setting the first rule with a name back to its old flag undoes the change |
| Listing.Collect | src/mcps/command-history/storage.ts:139-168 | the reading loop yields exactly the entries of readable `.json` files the filter keeps; other names and unreadable files are skipped |
| Listing.CollectMultiset | src/mcps/command-history/storage.ts:143-168 | over a listing that names each file once, the number of times an entry is collected is the number of selected files holding it |
| Listing.CollectCounts | src/mcps/command-history/storage.ts:139-168 | over a full listing, the collected entries are, with their multiplicities, exactly the entries of the selected files |
| Listing.CollectCount | src/mcps/command-history/storage.ts:143-168 | each selected file contributes exactly one entry |
| Listing.InsertNewest | src/mcps/command-history/storage.ts:171-173 | inserting into a newest-first list keeps it newest first and adds exactly the one entry |
| Listing.SortNewestFirst | src/mcps/command-history/storage.ts:171-173 | the sort is a permutation ordered by descending timestamp |
| Listing.Retrieve | src/mcps/command-history/storage.ts:137-173 | retrieval returns every selected file's entry once, newest first, whatever order the directory is listed in: each entry occurs exactly as often as there are selected files holding it |
| Storage.Basename | src/mcps/command-history/storage.ts:71 | the last path component: a suffix with no separator, preceded by a separator unless it is the whole path |
| Storage.ProjectName | src/mcps/command-history/storage.ts:61-72 | the package name when it is a non-empty string, otherwise exactly the working directory's last component: the suffix with no separator, preceded by a separator unless it is the whole path (the same properties that fix `Storage.Basename`) |
| Storage.CommandsDir | src/mcps/command-history/storage.ts:47-49 | in home mode, the project name under `.vibehistory` in the home directory; otherwise the configured path, taken as it is when absolute, the working directory when empty, and appended to the working directory after a separator when relative (the default `./command_history` included). Its relation to the responses directory is `ResponsesBesideCommands` |
| Storage.ResponsesDir | src/mcps/command-history/storage.ts:51-53 | ends in `.vibeR`; in home mode it sits under `.vibehistory` in the home directory beside the commands directory. Its relation to the commands directory is `ResponsesBesideCommands` |
| Storage.ResponsesBesideCommands | src/mcps/command-history/storage.ts:47-53 | as plain strings, the responses directory is the commands directory with `.vibeR` appended, except with an empty configured path where it is nested inside; the two always differ |
| Storage.NewStore | src/mcps/command-history/storage.ts:42-56 | the store keeps its configuration, derives both paths, and creates a missing directory while keeping an existing one as it is |
| Storage.Cleanup | src/mcps/command-history/storage.ts:239-267 | with retention off nothing changes; otherwise files are only removed, never changed, non-`.json` files stay, and responses are not touched |
| Storage.FileName | src/mcps/command-history/storage.ts:87-90 | `<session>_<id>.json`: a `.json` name that starts with the session and an underscore and holds the id before the extension. It splits back into session and id by `ParseFileNameRoundTrip` |
| Storage.SaveCommand | src/mcps/command-history/storage.ts:85-106 | a failed write or a missing directory changes nothing; with retention off, exactly the one file is written under its canonical name; the responses are not touched. With retention on, `SaveCommandRemovesExpired` states which files remain |
| Storage.SaveResponse | src/mcps/command-history/storage.ts:111-127 | exactly the one response file is written, with no cleanup; commands are not touched; a failed write changes nothing |
| Storage.KeepCommand | src/mcps/command-history/storage.ts:148-162 | no filter keeps everything; a filter keeps an entry exactly when its session matches a given session and its timestamp lies within the given bounds, inclusive. Its effect on a read is `FilteredGetEntries` |
| Storage.KeepResponse | src/mcps/command-history/storage.ts:200-218 | as for commands, with an extra match on a given command id. Its effect on a read is `FilteredGetResponses` |
| Storage.GetEntries | src/mcps/command-history/storage.ts:132-178 | exactly the readable `.json` command entries that match the session and the inclusive date bounds, one per file, newest first, each occurring as often as there are files holding it; a missing directory gives none |
| Storage.GetResponses | src/mcps/command-history/storage.ts:183-234 | as for commands, with the extra command-id filter, over the responses directory, again with multiplicities |
| StorageLaws.FileNameDistinctIds | src/mcps/command-history/storage.ts:87-90 | within a session, distinct ids give distinct file names |
| StorageLaws.LastIndexOf | src/mcps/command-history/storage.ts:89 | the last position of a character, or none when it does not occur |
| StorageLaws.ParseFileNameRoundTrip | src/mcps/command-history/storage.ts:87-90 | a file name splits back into its session and id, when the id has no underscore |
| StorageLaws.FileNameInjective | src/mcps/command-history/storage.ts:87-90 | for such ids, equal file names mean equal sessions and equal ids, so different sessions never collide |
| StorageLaws.CleanupDeletesExactlyExpired | src/mcps/command-history/storage.ts:241-262 | with canonical names, cleanup removes a command file exactly when it is a readable `.json` entry strictly older than now minus the retention days, and keeps one exactly at the cutoff |
| StorageLaws.CleanupKeepsCanonical | src/mcps/command-history/storage.ts:248-262 | cleanup keeps every file under its canonical name |
| StorageLaws.SaveCommandKeepsCanonical | src/mcps/command-history/storage.ts:87-102 | saving a command keeps every file under its canonical name |
| StorageLaws.SavedCommandSurvives | src/mcps/command-history/storage.ts:85-102 | an entry saved no earlier than the cutoff is still there, unchanged, after the cleanup that follows its save |
| StorageLaws.SaveCommandRemovesExpired | src/mcps/command-history/storage.ts:85-106 | with retention on, after a save the new file is present exactly when its entry is within the window, and holds it; every other file remains exactly when it was there and is not expired, and remains unchanged |
| StorageLaws.SaveThenGetEntries | src/mcps/command-history/storage.ts:85-178 | round trip: a saved command that survives cleanup is returned by an unfiltered read |
| StorageLaws.CleanupRemovesSavedFile | src/mcps/command-history/storage.ts:248-257 | a saved entry older than the cutoff is removed, because cleanup rebuilds the same name the save used |
| StorageLaws.SaveResponseKeepsFiles | src/mcps/command-history/storage.ts:111-127 | saving a response removes no response file and does not touch the commands |
| StorageLaws.UnfilteredGetEntriesReturnsAll | src/mcps/command-history/storage.ts:148-164 | no filter, or a filter with nothing set, returns every readable `.json` entry |
| StorageLaws.MissingDirectoryReadsEmpty | src/mcps/command-history/storage.ts:174-177 | reading a missing directory gives an empty list, whatever the filter |
| StorageLaws.FilteredGetEntries | src/mcps/command-history/storage.ts:148-162 | a command filter keeps an entry exactly when the session matches (an empty session does not filter) and the timestamp lies within both bounds, inclusive |
| StorageLaws.FilteredGetResponses | src/mcps/command-history/storage.ts:200-209 | a command-id filter keeps exactly the responses to that command; an empty id keeps all |
| CommandHistory.MergeConfig | src/mcps/command-history/index.ts:18-19 | each key the user gives replaces the default wholesale, nested storage settings and rule list included; each key left out keeps the default |
| CommandHistory.SessionOf | src/mcps/command-history/index.ts:44 | the context's session id, or `unknown` when it is missing or empty; never empty |
| CommandHistory.NewMcp | src/mcps/command-history/index.ts:18-22 | the plugin starts with the merged configuration, a store built from it, an engine holding the merged rules with no records, and no latest command |
| CommandHistory.CommandRecord | src/mcps/command-history/index.ts:41-48 | the entry carries the fresh id, the clock, a non-empty session that is the context's when given, the original and modified request, and the engine's records. That it is what gets stored is `RequestIsLogged` |
| CommandHistory.ProcessRequest | src/mcps/command-history/index.ts:27-57 | a request that cannot be copied comes back as it is with nothing changed; otherwise the fresh id becomes the latest command id. With modifications on and no throw, the modified request goes on; with them off, or on a throw, the original does. A throw logs nothing, and responses are never touched |
| CommandHistory.ProcessResponse | src/mcps/command-history/index.ts:62-80 | the response always comes back as it is. It is saved, tagged with the latest command id, exactly when response saving is on and there is a latest command; otherwise nothing changes |
| CommandHistory.GetProviderInfo | src/mcps/command-history/index.ts:92-96 | the provider id is `command-history-mcp` and it asks to run first in the chain |
| CommandHistoryLaws.EmptyUserConfigIsDefault | src/mcps/command-history/index.ts:19 | with no user configuration the plugin runs on the defaults |
| CommandHistoryLaws.NewMcpEstablishesInvariant | src/mcps/command-history/index.ts:18-22 | a new plugin satisfies the invariant: its engine holds the configured rules, its store the configured storage, records are empty when modifications are off, and command files sit under canonical names |
| CommandHistoryLaws.ProcessRequestKeepsInvariant | src/mcps/command-history/index.ts:27-57 | a request keeps that invariant |
| CommandHistoryLaws.ProcessResponseKeepsInvariant | src/mcps/command-history/index.ts:62-80 | a response keeps that invariant |
| CommandHistoryLaws.NoResponseSavedBeforeRequest | src/mcps/command-history/index.ts:16 | before any request there is no latest command, so a response is passed through and nothing is saved |
| CommandHistoryLaws.RequestIsLogged | src/mcps/command-history/index.ts:41-48 | the logged entry sits under the context's session and the fresh id. It holds the clock, the original request, the request as it goes on, and the records of the rules that fired, which are none when modifications are off. It survives the cleanup that follows its save |
| CommandHistoryLaws.ThrowingRequestPassesThrough | src/mcps/command-history/index.ts:33-56 | when a pattern does not compile, the original request goes on and nothing is logged, yet the fresh id has become the latest command id |
| CommandHistoryLaws.ResponseTiedToLatestRequest | src/mcps/command-history/index.ts:64-72 | a response saved after a request is filed under the context's session and tagged with that request's id |
| CommandHistoryLaws.TwoRequestsTwoFiles | src/mcps/command-history/index.ts:33-48 | two requests in one session with different ids are logged in two different files. The first survives the second's cleanup while it is within the retention window |

## Left out

- Regular-expression semantics: the engine is an abstract parameter. Only the
  law that a replacement changes nothing in a string the pattern does not
  match (`Modifier.Lawful`) is assumed where it is used. Replacement-string
  escapes such as `$&` are part of the abstract replacement.
- File-system I/O is modelled as maps from name to file. These are left out:
  JSON formatting on disk, partial writes, an existing directory that cannot
  be created, and a failing `fs.remove`, which would stop cleanup part way.
- Storage.Cleanup: runs to completion, as if awaited. The source starts it
  without awaiting it (`storage.ts:101`), so it may interleave with later
  calls; concurrency is not modelled.
- Storage.Cutoff: is `now − days · 86 400 000` ms, with whole days only
  (`retentionDays` is an `int`). The source subtracts calendar days from a
  local date (`storage.ts:243-244`), which differs by an hour across a
  daylight-saving change. Its `retentionDays` is any number: a fraction such
  as 0.5 passes the `> 0` test (`storage.ts:100`, `241`) and runs cleanup, and
  `setDate` truncates the fractional day count it is given, so how far back
  the cutoff lies depends on the day of the month (1.5 days is two days back
  on the 9th but one day back on the 1st). Fractional retention is not
  modelled.
- Timestamps are integer milliseconds. The ISO-string round trip through
  `new Date` and the invalid-date case are not modelled.
- Listing.SortNewestFirst: the source's sort is stable (JavaScript's
  `Array.prototype.sort` is, since ES2019), and so is the model's insertion
  sort: entries with equal timestamps keep their listing order. The contract
  states newest-first order and permutation, not stability.
- Storage.Resolve and Storage.Join: plain concatenation. With normalisation
  the responses directory is also nested inside the commands directory when
  the configured path is `.` or ends in a separator; the model sees that only
  for an empty path. Normalisation of `.`,
  `..` and repeated separators is left out. A path ending in a separator is
  taken as having an empty last component (`Storage.Basename`).
- Json: objects keep their members in enumeration order. JavaScript's
  reordering of integer-like keys is not modelled, and neither are `undefined`,
  functions, cyclic values, BigInt or non-finite numbers. On such requests the
  source's `JSON.stringify` copy silently drops `undefined` members and
  functions and turns non-finite numbers into `null`, so the logged original
  differs from the request; the model does not see that. The copy throws, for
  example, for a cyclic value, a BigInt, a `toJSON` method or getter that
  throws, or a top-level `undefined`, function or Symbol (for which the
  string form is `undefined` and parsing it fails). Any such throw is the
  unconstrained `cloneFails` flag of `Io`.
- CommandHistory.MergeConfig: a user key present with the value `undefined`
  overrides the default with `undefined` in the source. The model treats it
  as absent.
- CommandHistory.SessionOf: a context without a `sessionId` property is
  covered as `None`; a missing context object (which would throw) is not
  modelled.
- The `database` storage kind is declared but has no implementation, and the
  model does not give it one.
- CommandHistory.GetProviderInfo: the JSON configuration schema in the
  provider info (`index.ts:97-189`) is static data. Only the id, name,
  description and position are modelled.
- The `enabled` flag of the configuration is read by the host, not by the
  plugin; the model carries it unused, as the plugin does.
- Logging to the console, the development-mode messages, `generateUniqueId`'s
  use of the clock and a random number (the id is the `Io.newId` parameter),
  and the host interfaces in `src/types.ts` are left out.
- Aliasing: the source's rule list is shared with the configuration object,
  so `addRule` and friends also change the configuration. The model uses
  values; `CommandHistory.Invariant` keeps the two equal only because the
  plugin never calls those operations.
- Modifier.SetRuleEnabled: changes only the first rule with the name. The
  source flips the flag on the rule object `find` returns (`modifier.ts:121-123`),
  and `addRule` and the constructor keep references (`modifier.ts:19`, `107`).
  So when one rule object sits at several positions (after adding it twice),
  every one of them changes, and a change the caller makes to a rule object
  after adding it reaches the list. The model's rules are values and does not
  model shared rule objects.
- Stored `.json` files whose contents parse but are not an entry object: the
  model treats every file as a parsed entry or unreadable. In the source two
  cases differ.
  - A file holding `null`: under any filter, reading `timestamp` of `null`
    throws inside the per-file `try` (`storage.ts:149`) and the file is
    skipped. Without a filter it is collected, and once there are two or more
    entries the sort's comparator throws, so the outer `catch` returns an
    empty list for the whole directory (`storage.ts:171-177`). Cleanup reads
    without a filter (`storage.ts:246`): with other entries it gets that empty
    list, and alone the file makes `entry.timestamp` throw at `storage.ts:249`
    into the `catch` at `storage.ts:264`. Either way cleanup deletes nothing,
    so one such file turns retention off for the whole commands directory.
  - A file holding any other non-entry value (`42`, `"x"`, `[]`, `{}`) throws
    nowhere: its `timestamp` is undefined and gives an invalid date. It is
    returned without a filter and under date-only filters, since comparisons
    with an invalid date are false, and dropped by a session filter. The
    comparator yields `NaN` for it, which the sort takes as equal, so the
    newest-first order of the other entries is no longer guaranteed. Cleanup
    never deletes it and still deletes the expired entries.
- Storage.FileName: a directory is a flat map from names to files, so
  `<sessionId>_<id>.json` is one name whatever the session id holds. In the
  source `path.join` reads a `/` in the session id as a subdirectory (the
  write fails and is caught when it is missing, and the directory listing
  never shows the file), and `..` leads out of the store. The session id comes
  unchecked from the host, so `StorageLaws.SaveThenGetEntries`,
  `CommandHistoryLaws.RequestIsLogged` and `CommandHistoryLaws.TwoRequestsTwoFiles`
  hold in the source only for session ids without a separator.
- Json: an object may repeat a key, which a parsed JavaScript object never
  does. `Json.WellFormed` names the values without repeats; the contracts hold
  for all values and so for those in particular, and `process` keeps a value
  well formed (`ModifierLaws.ProcessKeepsWellFormed`).
- Modifier.AppliedModifications: returns a copy in the source. With values
  the copy is implicit, so there is nothing to state beyond returning the
  records.

=== FILE: command_history.dfy ===
/** The plugin itself (src/mcps/command-history/index.ts): it merges the user's
    configuration over the defaults, owns a rule engine and a history store,
    and remembers the id of the latest command so responses can be tied to it. */
module CommandHistory {
  import opened Wrappers
  import opened Json
  import opened Config
  import opened Modifier
  import opened Listing
  import opened Storage

  /** A partial configuration: `None` is a key the user left out. */
  datatype UserConfig = UserConfig(
    enabled: Option<bool>,
    position: Option<Position>,
    enableModifications: Option<bool>,
    saveResponses: Option<bool>,
    storage: Option<StorageConfig>,
    modifications: Option<seq<Rule>>)

  function Pick<T>(user: Option<T>, default: T): T {
    match user
    case Some(v) => v
    case None => default
  }

  /** The shallow merge `{ ...defaultConfig, ...userConfig }`: every key the
      user gives replaces the default wholesale, nested ones included. */
  function MergeConfig(user: UserConfig): (c: Config)
    ensures user.enabled.Some? ==> c.enabled == user.enabled.value
    ensures user.position.Some? ==> c.position == user.position.value
    ensures user.enableModifications.Some? ==> c.enableModifications == user.enableModifications.value
    ensures user.saveResponses.Some? ==> c.saveResponses == user.saveResponses.value
    ensures user.storage.Some? ==> c.storage == user.storage.value
    ensures user.modifications.Some? ==> c.modifications == user.modifications.value
    ensures user.enabled.None? ==> c.enabled == DefaultConfig().enabled
    ensures user.position.None? ==> c.position == DefaultConfig().position
    ensures user.enableModifications.None? ==> c.enableModifications == DefaultConfig().enableModifications
    ensures user.saveResponses.None? ==> c.saveResponses == DefaultConfig().saveResponses
    ensures user.storage.None? ==> c.storage == DefaultConfig().storage
    ensures user.modifications.None? ==> c.modifications == DefaultConfig().modifications
  {
    var d := DefaultConfig();
    Config(
      enabled := Pick(user.enabled, d.enabled),
      position := Pick(user.position, d.position),
      enableModifications := Pick(user.enableModifications, d.enableModifications),
      saveResponses := Pick(user.saveResponses, d.saveResponses),
      storage := Pick(user.storage, d.storage),
      modifications := Pick(user.modifications, d.modifications))
  }

  /** What the host passes along with each call. */
  datatype Context = Context(sessionId: Option<string>)

  /** The session an entry is filed under: the context's, or "unknown" when
      it is missing or empty. */
  function SessionOf(ctx: Context): (r: string)
    ensures r != ""
    ensures Given(ctx.sessionId) ==> r == ctx.sessionId.value
    ensures !Given(ctx.sessionId) ==> r == "unknown"
  {
    if Given(ctx.sessionId) then ctx.sessionId.value else "unknown"
  }

  /** What one call takes from the outside world: a fresh id from the id
      generator, the clock, whether the JSON round-trip copy of the request
      throws (a cyclic value, a BigInt, a top-level `undefined`), and whether
      the file write fails. */
  datatype Io = Io(newId: string, now: int, cloneFails: bool, writeFails: bool)

  /** The plugin's state. */
  datatype Mcp = Mcp(config: Config, storage: Store, modifier: Modifier, lastCommandId: Option<string>)

  /** The constructor: merge, build the store (creating its directories), and
      hand the merged rule list to a fresh rule engine. */
  function NewMcp(user: UserConfig, env: Env, commands: Dir<CommandEntry>, responses: Dir<ResponseEntry>): (m: Mcp)
    ensures m.config == MergeConfig(user)
    ensures m.storage == NewStore(m.config.storage, env, commands, responses)
    ensures m.modifier.rules == m.config.modifications && m.modifier.applied == []
    ensures m.lastCommandId == None
  {
    var config := MergeConfig(user);
    Mcp(config, NewStore(config.storage, env, commands, responses), NewModifier(config.modifications), None)
  }

  /** What holds of the plugin between calls. */
  predicate Invariant(m: Mcp) {
    && m.modifier.rules == m.config.modifications
    && m.storage.config == m.config.storage
    && (!m.config.enableModifications ==> m.modifier.applied == [])
    && (m.lastCommandId.Some? ==> m.lastCommandId.value != "")
    && (m.storage.commands.Present? ==> Canonical(m.storage.commands.files))
  }

  /** The command entry a request is logged as. */
  function CommandRecord(m: Mcp, modifier: Modifier, request: Json, modified: Json, ctx: Context, io: Io): (e: CommandEntry)
    ensures e.id == io.newId && e.timestamp == io.now
    ensures e.sessionId != "" && (Given(ctx.sessionId) ==> e.sessionId == ctx.sessionId.value)
    ensures e.originalCommand == request && e.modifiedCommand == modified
    ensures e.modifications == modifier.applied
  {
    CommandEntry(io.newId, io.now, SessionOf(ctx), request, modified, AppliedModifications(modifier))
  }

  /** `processRequest`: copy the request, take a fresh id as the latest
      command id, run the rules when modifications are on, log the command and
      return the modified request. Any throw returns the original request. */
  function ProcessRequest(re: Regex, m: Mcp, request: Json, ctx: Context, io: Io): (r: (Mcp, Json))
    requires io.newId != ""
    ensures r.0.config == m.config
    ensures r.0.storage.responses == m.storage.responses
    ensures io.cloneFails ==> r == (m, request)
    ensures !io.cloneFails ==> r.0.lastCommandId == Some(io.newId)
    ensures !io.cloneFails && m.config.enableModifications && Process(re, m.modifier, request).1.Ok? ==>
              r.1 == Process(re, m.modifier, request).1.value
    ensures !m.config.enableModifications || Process(re, m.modifier, request).1.Threw? ==> r.1 == request
    ensures !io.cloneFails && m.config.enableModifications && Process(re, m.modifier, request).1.Threw? ==>
              r.0.storage == m.storage
  {
    if io.cloneFails then (m, request)
    else
      var original := request;
      var m1 := m.(lastCommandId := Some(io.newId));
      if m.config.enableModifications then
        var (modifier', result) := Process(re, m.modifier, request);
        match result
        case Threw(_) => (m1.(modifier := modifier'), request)
        case Ok(modified) =>
          var entry := CommandRecord(m, modifier', original, modified, ctx, io);
          (m1.(modifier := modifier', storage := SaveCommand(m.storage, entry, io.now, io.writeFails)), modified)
      else
        var entry := CommandRecord(m, m.modifier, original, request, ctx, io);
        (m1.(storage := SaveCommand(m.storage, entry, io.now, io.writeFails)), request)
  }

  /** `processResponse`: when response saving is on and a command has been
      seen, log the response against the latest command id; the response is
      always returned as it came. */
  function ProcessResponse(m: Mcp, response: Json, ctx: Context, io: Io): (r: (Mcp, Json))
    ensures r.1 == response
    ensures r.0.config == m.config && r.0.modifier == m.modifier && r.0.lastCommandId == m.lastCommandId
    ensures r.0.storage.commands == m.storage.commands
    ensures !(m.config.saveResponses && Given(m.lastCommandId)) ==> r.0 == m
    ensures m.config.saveResponses && Given(m.lastCommandId) && m.storage.responses.Present? && !io.writeFails ==>
              r.0.storage.responses == Present(m.storage.responses.files[FileName(SessionOf(ctx), io.newId) :=
                Readable(ResponseEntry(io.newId, io.now, SessionOf(ctx), m.lastCommandId.value, response))])
  {
    if m.config.saveResponses && Given(m.lastCommandId) then
      var entry := ResponseEntry(io.newId, io.now, SessionOf(ctx), m.lastCommandId.value, response);
      (m.(storage := SaveResponse(m.storage, entry, io.writeFails)), response)
    else (m, response)
  }

  /** The descriptor the host reads when registering the plugin. */
  datatype ProviderInfo = ProviderInfo(id: string, name: string, description: string, position: Position)

  function GetProviderInfo(): (p: ProviderInfo)
    ensures p.id == "command-history-mcp"
    ensures p.position == First
    ensures p.name != "" && p.description != ""
  {
    ProviderInfo(
      "command-history-mcp",
      "Command History MCP",
      "Logs and optionally modifies all commands sent to AI backends",
      First)
  }
}

=== FILE: command_history_laws.dfy ===
/** Properties of the plugin across calls (src/mcps/command-history/index.ts). */
module CommandHistoryLaws {
  import opened Wrappers
  import opened Json
  import opened Config
  import opened Modifier
  import opened Listing
  import opened Storage
  import opened StorageLaws
  import opened CommandHistory

  /** With no user configuration at all, the plugin runs on the defaults. */
  lemma EmptyUserConfigIsDefault()
    ensures MergeConfig(UserConfig(None, None, None, None, None, None)) == DefaultConfig()
  {
  }

  /** The constructor establishes the invariant, given a commands directory
      whose files sit under their own names. */
  lemma NewMcpEstablishesInvariant(user: UserConfig, env: Env, commands: Dir<CommandEntry>, responses: Dir<ResponseEntry>)
    requires commands.Present? ==> Canonical(commands.files)
    ensures Invariant(NewMcp(user, env, commands, responses))
  {
  }

  /** A request keeps the invariant. */
  lemma ProcessRequestKeepsInvariant(re: Regex, m: Mcp, request: Json, ctx: Context, io: Io)
    requires Invariant(m) && io.newId != ""
    ensures Invariant(ProcessRequest(re, m, request, ctx, io).0)
  {
  }

  /** A response keeps the invariant. */
  lemma ProcessResponseKeepsInvariant(m: Mcp, response: Json, ctx: Context, io: Io)
    requires Invariant(m)
    ensures Invariant(ProcessResponse(m, response, ctx, io).0)
  {
  }

  /** Before the first request there is no command id, so a response is
      passed through and nothing is saved. */
  lemma NoResponseSavedBeforeRequest(user: UserConfig, env: Env, commands: Dir<CommandEntry>, responses: Dir<ResponseEntry>,
                                     response: Json, ctx: Context, io: Io)
    ensures var m := NewMcp(user, env, commands, responses);
      ProcessResponse(m, response, ctx, io) == (m, response)
  {
  }

  /** The entry logged for a request: under the context's session and the
      fresh id, stamped with the clock, holding the request as it came, the
      request as it goes on, and the records of the rules that matched (none
      when modifications are off). It survives the cleanup that follows the
      save. */
  lemma RequestIsLogged(re: Regex, m: Mcp, request: Json, ctx: Context, io: Io)
    requires Invariant(m) && io.newId != ""
    requires !io.cloneFails && !io.writeFails && m.storage.commands.Present?
    requires m.config.enableModifications ==> Process(re, m.modifier, request).1.Ok?
    ensures var r := ProcessRequest(re, m, request, ctx, io);
      var name := FileName(SessionOf(ctx), io.newId);
      var mods := if m.config.enableModifications then Process(re, m.modifier, request).0.applied else [];
      r.0.storage.commands.Present? && name in r.0.storage.commands.files
      && r.0.storage.commands.files[name] == Readable(CommandEntry(io.newId, io.now, SessionOf(ctx), request, r.1, mods))
  {
  }

  /** When a rule's pattern does not compile the original request goes on,
      nothing is logged, and yet the fresh id becomes the latest command id. */
  lemma ThrowingRequestPassesThrough(re: Regex, m: Mcp, request: Json, ctx: Context, io: Io)
    requires io.newId != "" && !io.cloneFails && m.config.enableModifications
    requires !Falsy(request) && |Leaves(request)| > 0 && SomeBadPattern(re, m.modifier.rules)
    ensures var r := ProcessRequest(re, m, request, ctx, io);
      r.1 == request && r.0.storage == m.storage && r.0.lastCommandId == Some(io.newId)
  {
  }

  /** A response is filed against the command that came just before it. */
  lemma ResponseTiedToLatestRequest(re: Regex, m: Mcp, request: Json, response: Json, ctx: Context, io: Io, io2: Io)
    requires Invariant(m) && io.newId != "" && !io.cloneFails
    requires m.config.saveResponses && m.storage.responses.Present? && !io2.writeFails
    ensures var m1 := ProcessRequest(re, m, request, ctx, io).0;
      var m2 := ProcessResponse(m1, response, ctx, io2).0;
      var name := FileName(SessionOf(ctx), io2.newId);
      m2.storage.responses.Present? && name in m2.storage.responses.files
      && m2.storage.responses.files[name] == Readable(ResponseEntry(io2.newId, io2.now, SessionOf(ctx), io.newId, response))
  {
  }

  /** Two requests of one session with distinct ids are logged in distinct
      files, and the first survives the second's cleanup while it is within
      the retention window. */
  lemma TwoRequestsTwoFiles(re: Regex, m: Mcp, a: Json, b: Json, ctx: Context, io1: Io, io2: Io)
    requires Invariant(m) && io1.newId != "" && io2.newId != "" && io1.newId != io2.newId
    requires !io1.cloneFails && !io1.writeFails && !io2.cloneFails && !io2.writeFails
    requires m.storage.commands.Present?
    requires m.config.enableModifications ==> !SomeBadPattern(re, m.config.modifications)
    requires m.config.storage.retentionDays > 0 ==> io1.now >= Cutoff(m.config.storage, io2.now)
    ensures var m1 := ProcessRequest(re, m, a, ctx, io1).0;
      var m2 := ProcessRequest(re, m1, b, ctx, io2).0;
      var n1 := FileName(SessionOf(ctx), io1.newId);
      var n2 := FileName(SessionOf(ctx), io2.newId);
      n1 != n2 && m2.storage.commands.Present?
      && n1 in m2.storage.commands.files && n2 in m2.storage.commands.files
  {
    var s := SessionOf(ctx);
    var n1 := FileName(s, io1.newId);
    var n2 := FileName(s, io2.newId);
    FileNameDistinctIds(s, io1.newId, io2.newId);
    RequestIsLogged(re, m, a, ctx, io1);
    ProcessRequestKeepsInvariant(re, m, a, ctx, io1);
    var m1 := ProcessRequest(re, m, a, ctx, io1).0;
    RequestIsLogged(re, m1, b, ctx, io2);
    var m2 := ProcessRequest(re, m1, b, ctx, io2).0;
    var f1 := m1.storage.commands.files;
    assert IsJsonName(n1) by {
      assert n1[|n1| - 5..] == ".json";
    }
    // the second save writes n2, then cleans up
    var p := Process(re, m1.modifier, b);
    var modifier := if m.config.enableModifications then p.0 else m1.modifier;
    var modified := if m.config.enableModifications then p.1.value else b;
    var e := CommandRecord(m1, modifier, b, modified, ctx, io2);
    var written := m1.storage.(commands := Present(f1[n2 := Readable(e)]));
    assert written.commands.files[n1] == f1[n1];
    if m.config.storage.retentionDays > 0 {
      assert Canonical(written.commands.files);
      assert !Expired(written.commands.files, n1, Cutoff(written.config, io2.now));
      CleanupDeletesExactlyExpired(written, io2.now);
    }
  }
}

=== FILE: config.dfy ===
/** Configuration shapes of the command-history plugin and its defaults
    (src/mcps/command-history/config.ts). */
module Config {

  /** The kind of a modification rule. The declared kinds are mask, edit and
      enrich; a rule read from user configuration may carry any other tag,
      which the rule engine records but otherwise ignores. An `Unknown` tag is
      never one of the declared names: `KindOf` is how a rule's `type` string
      becomes a kind. */
  datatype Kind = Mask | Edit | Enrich | Unknown(tag: string)

  predicate DeclaredName(tag: string) {
    tag == "mask" || tag == "edit" || tag == "enrich"
  }

  /** The branch a rule's `type` string selects in the rule engine's switch. */
  function KindOf(tag: string): (k: Kind)
    ensures k == Mask <==> tag == "mask"
    ensures k == Edit <==> tag == "edit"
    ensures k == Enrich <==> tag == "enrich"
    ensures k.Unknown? <==> !DeclaredName(tag)
    ensures k.Unknown? ==> k.tag == tag
  {
    if tag == "mask" then Mask
    else if tag == "edit" then Edit
    else if tag == "enrich" then Enrich
    else Unknown(tag)
  }

  /** A named, switchable text-transformation directive. `pattern` is the
      source text of a regular expression. */
  datatype Rule = Rule(name: string, kind: Kind, pattern: string, replacement: string, enabled: bool)

  /** Where the plugin asks to sit in the host's chain. */
  datatype Position = First | Last | Slot(index: int)

  /** `Database` is declared but has no implementation. */
  datatype StorageKind = File | Database

  /** Storage settings; `retentionDays <= 0` disables cleanup. */
  datatype StorageConfig = StorageConfig(kind: StorageKind, path: string, retentionDays: int, useHomeDir: bool)

  datatype Config = Config(
    enabled: bool,
    position: Position,
    enableModifications: bool,
    saveResponses: bool,
    storage: StorageConfig,
    modifications: seq<Rule>)

  /** A rule whose kind is one of the three declared kinds. */
  predicate DeclaredKind(rule: Rule) {
    !rule.kind.Unknown?
  }

  const MASK_CREDENTIALS := Rule("mask_credentials", Mask, "password\\s*:\\s*\\S+", "password: [REDACTED]", true)
  const MASK_API_KEYS := Rule("mask_api_keys", Mask, "api[-_]?key\\s*[:=]\\s*\\S+", "api_key: [REDACTED]", true)

  /** The configuration used for every key the user leaves unset. */
  function DefaultConfig(): (c: Config)
    ensures c.enabled && c.position == First
    ensures c.enableModifications && c.saveResponses
    ensures c.storage.kind == File && c.storage.path == "./command_history"
    ensures c.storage.retentionDays == 30 && c.storage.useHomeDir
    ensures |c.modifications| == 2
    ensures c.modifications[0].name == "mask_credentials" && c.modifications[1].name == "mask_api_keys"
    ensures c.modifications[0].pattern == "password\\s*:\\s*\\S+"
    ensures c.modifications[0].replacement == "password: [REDACTED]"
    ensures c.modifications[1].pattern == "api[-_]?key\\s*[:=]\\s*\\S+"
    ensures c.modifications[1].replacement == "api_key: [REDACTED]"
    ensures forall i :: 0 <= i < |c.modifications| ==>
              c.modifications[i].kind == Mask && c.modifications[i].enabled && DeclaredKind(c.modifications[i])
  {
    Config(
      enabled := true,
      position := First,
      enableModifications := true,
      saveResponses := true,
      storage := StorageConfig(File, "./command_history", 30, true),
      modifications := [MASK_CREDENTIALS, MASK_API_KEYS])
  }
}

=== FILE: json.dfy ===
/** JSON values as the rule engine and the history store see them. */
module Json {

  /** A JSON value. Object members are kept in their enumeration order, which
      is the order `for ... in` visits them. Numbers are opaque payloads. */
  datatype Json =
    | JNull
    | JBool(b: bool)
    | JNumber(n: real)
    | JString(s: string)
    | JArray(elems: seq<Json>)
    | JObject(fields: seq<(string, Json)>)

  /** JavaScript falsiness restricted to JSON values: null, false, 0 and "". */
  predicate Falsy(v: Json) {
    v == JNull || v == JBool(false) || v == JNumber(0.0) || v == JString("")
  }

  /** The string leaves of a value, in depth-first order. */
  function Leaves(v: Json): seq<string>
    decreases v, 1
  {
    match v
    case JString(s) => [s]
    case JArray(a) => LeavesElems(a)
    case JObject(fs) => LeavesFields(fs)
    case _ => []
  }

  function LeavesElems(a: seq<Json>): seq<string>
    decreases a, 0
  {
    if a == [] then [] else Leaves(a[0]) + LeavesElems(a[1..])
  }

  function LeavesFields(fs: seq<(string, Json)>): seq<string>
    decreases fs, 0
  {
    if fs == [] then []
    else
      var m := fs[0];
      assert m in fs && m.1 < m;
      Leaves(m.1) + LeavesFields(fs[1..])
  }

  /** The value with every string leaf blanked out: what is left is its shape
      (constructors, array lengths, object keys in order, non-string leaves). */
  function Skeleton(v: Json): (r: Json)
    ensures v.JArray? <==> r.JArray?
    ensures v.JObject? <==> r.JObject?
    ensures v.JString? <==> r.JString?
    ensures v.JArray? ==> |r.elems| == |v.elems|
    ensures v.JObject? ==> Keys(r.fields) == Keys(v.fields)
    ensures !v.JArray? && !v.JObject? && !v.JString? ==> r == v
    decreases v, 1
  {
    match v
    case JString(_) => JString("")
    case JArray(a) => JArray(SkeletonElems(a))
    case JObject(fs) => JObject(SkeletonFields(fs))
    case _ => v
  }

  function SkeletonElems(a: seq<Json>): (r: seq<Json>)
    ensures |r| == |a|
    decreases a, 0
  {
    if a == [] then [] else [Skeleton(a[0])] + SkeletonElems(a[1..])
  }

  function SkeletonFields(fs: seq<(string, Json)>): (r: seq<(string, Json)>)
    ensures Keys(r) == Keys(fs)
    decreases fs, 0
  {
    if fs == [] then []
    else
      var m := fs[0];
      assert m in fs && m.1 < m;
      [(m.0, Skeleton(m.1))] + SkeletonFields(fs[1..])
  }

  /** The keys of an object, in order. */
  function Keys(fs: seq<(string, Json)>): (r: seq<string>)
    ensures |r| == |fs|
    ensures forall i :: 0 <= i < |fs| ==> r[i] == fs[i].0
  {
    seq(|fs|, i requires 0 <= i < |fs| => fs[i].0)
  }

  /** Blanking the strings keeps their number. */
  lemma {:induction false} SkeletonLeafCount(v: Json)
    ensures |Leaves(Skeleton(v))| == |Leaves(v)|
    decreases v, 1
  {
    match v
    case JArray(a) => SkeletonLeafCountElems(a);
    case JObject(fs) => SkeletonLeafCountFields(fs);
    case _ =>
  }

  lemma {:induction false} SkeletonLeafCountElems(a: seq<Json>)
    ensures |LeavesElems(SkeletonElems(a))| == |LeavesElems(a)|
    decreases a, 0
  {
    if a != [] {
      var sk := SkeletonElems(a);
      assert sk[0] == Skeleton(a[0]) && sk[1..] == SkeletonElems(a[1..]);
      SkeletonLeafCount(a[0]);
      SkeletonLeafCountElems(a[1..]);
    }
  }

  lemma {:induction false} SkeletonLeafCountFields(fs: seq<(string, Json)>)
    ensures |LeavesFields(SkeletonFields(fs))| == |LeavesFields(fs)|
    decreases fs, 0
  {
    if fs != [] {
      var m := fs[0];
      assert m in fs && m.1 < m;
      var sk := SkeletonFields(fs);
      assert sk[0].1 == Skeleton(m.1) && sk[1..] == SkeletonFields(fs[1..]);
      SkeletonLeafCount(m.1);
      SkeletonLeafCountFields(fs[1..]);
    }
  }

  /** A value is determined by its shape together with its string leaves: two
      values that agree on both are equal. */
  lemma {:induction false} ShapeAndLeavesDetermine(a: Json, b: Json)
    requires Skeleton(a) == Skeleton(b) && Leaves(a) == Leaves(b)
    ensures a == b
    decreases a, 1
  {
    match a
    case JArray(xs) => ShapeAndLeavesDetermineElems(xs, b.elems);
    case JObject(fs) => ShapeAndLeavesDetermineFields(fs, b.fields);
    case JString(s) => assert Leaves(b) == [b.s];
    case _ =>
  }

  lemma {:induction false} ShapeAndLeavesDetermineElems(a: seq<Json>, b: seq<Json>)
    requires SkeletonElems(a) == SkeletonElems(b) && LeavesElems(a) == LeavesElems(b)
    ensures a == b
    decreases a, 0
  {
    if a != [] {
      var sa, sb := SkeletonElems(a), SkeletonElems(b);
      assert sa[0] == Skeleton(a[0]) && sa[1..] == SkeletonElems(a[1..]);
      assert sb[0] == Skeleton(b[0]) && sb[1..] == SkeletonElems(b[1..]);
      SkeletonLeafCount(a[0]);
      SkeletonLeafCount(b[0]);
      var n := |Leaves(a[0])|;
      assert LeavesElems(a)[..n] == Leaves(a[0]) && LeavesElems(a)[n..] == LeavesElems(a[1..]);
      assert LeavesElems(b)[..n] == Leaves(b[0]) && LeavesElems(b)[n..] == LeavesElems(b[1..]);
      ShapeAndLeavesDetermine(a[0], b[0]);
      ShapeAndLeavesDetermineElems(a[1..], b[1..]);
      assert a == [a[0]] + a[1..] && b == [b[0]] + b[1..];
    }
  }

  lemma {:induction false} ShapeAndLeavesDetermineFields(a: seq<(string, Json)>, b: seq<(string, Json)>)
    requires SkeletonFields(a) == SkeletonFields(b) && LeavesFields(a) == LeavesFields(b)
    ensures a == b
    decreases a, 0
  {
    if a != [] {
      var m := a[0];
      assert m in a && m.1 < m;
      var sa, sb := SkeletonFields(a), SkeletonFields(b);
      assert sa[0] == (m.0, Skeleton(m.1)) && sa[1..] == SkeletonFields(a[1..]);
      assert sb[0] == (b[0].0, Skeleton(b[0].1)) && sb[1..] == SkeletonFields(b[1..]);
      SkeletonLeafCount(m.1);
      SkeletonLeafCount(b[0].1);
      var n := |Leaves(m.1)|;
      assert LeavesFields(a)[..n] == Leaves(m.1) && LeavesFields(a)[n..] == LeavesFields(a[1..]);
      assert LeavesFields(b)[..n] == Leaves(b[0].1) && LeavesFields(b)[n..] == LeavesFields(b[1..]);
      ShapeAndLeavesDetermine(m.1, b[0].1);
      ShapeAndLeavesDetermineFields(a[1..], b[1..]);
      assert a == [a[0]] + a[1..] && b == [b[0]] + b[1..];
    }
  }

  /** No key repeats within one object. */
  predicate DistinctKeys(fs: seq<(string, Json)>) {
    forall i, j :: 0 <= i < j < |fs| ==> fs[i].0 != fs[j].0
  }

  /** No object repeats a key, at any depth: the values a JSON parse yields,
      since a JavaScript object holds each key once. */
  predicate WellFormed(v: Json)
    decreases v, 1
  {
    match v
    case JArray(a) => WellFormedElems(a)
    case JObject(fs) => DistinctKeys(fs) && WellFormedFields(fs)
    case _ => true
  }

  predicate WellFormedElems(a: seq<Json>)
    decreases a, 0
  {
    a == [] || (WellFormed(a[0]) && WellFormedElems(a[1..]))
  }

  predicate WellFormedFields(fs: seq<(string, Json)>)
    decreases fs, 0
  {
    if fs == [] then true
    else
      var m := fs[0];
      assert m in fs && m.1 < m;
      WellFormed(m.1) && WellFormedFields(fs[1..])
  }

  /** Well-formedness depends on the shape alone. */
  lemma {:induction false} SkeletonKeepsWellFormed(v: Json)
    ensures WellFormed(Skeleton(v)) <==> WellFormed(v)
    decreases v, 1
  {
    match v
    case JArray(a) => SkeletonKeepsWellFormedElems(a);
    case JObject(fs) =>
      SkeletonKeepsWellFormedFields(fs);
      assert DistinctKeys(SkeletonFields(fs)) <==> DistinctKeys(fs) by {
        assert Keys(SkeletonFields(fs)) == Keys(fs);
      }
    case _ =>
  }

  lemma {:induction false} SkeletonKeepsWellFormedElems(a: seq<Json>)
    ensures WellFormedElems(SkeletonElems(a)) <==> WellFormedElems(a)
    decreases a, 0
  {
    if a != [] {
      var sk := SkeletonElems(a);
      assert sk[0] == Skeleton(a[0]) && sk[1..] == SkeletonElems(a[1..]);
      SkeletonKeepsWellFormed(a[0]);
      SkeletonKeepsWellFormedElems(a[1..]);
    }
  }

  lemma {:induction false} SkeletonKeepsWellFormedFields(fs: seq<(string, Json)>)
    ensures WellFormedFields(SkeletonFields(fs)) <==> WellFormedFields(fs)
    decreases fs, 0
  {
    if fs != [] {
      var m := fs[0];
      assert m in fs && m.1 < m;
      var sk := SkeletonFields(fs);
      assert sk[0].1 == Skeleton(m.1) && sk[1..] == SkeletonFields(fs[1..]);
      SkeletonKeepsWellFormed(m.1);
      SkeletonKeepsWellFormedFields(fs[1..]);
    }
  }
}

=== FILE: listing.dfy ===
/** Reading a directory of JSON entry files back: collect the readable `.json`
    files a filter keeps, then order them newest first
    (src/mcps/command-history/storage.ts, `getEntries` and `getResponses`). */
module Listing {

  /** A file as `readJson` sees it: parsed into an entry, or unreadable. */
  datatype File<E> = Readable(entry: E) | Unreadable

  predicate IsJsonName(name: string) {
    |name| >= 5 && name[|name| - 5..] == ".json"
  }

  /** `listing` is a directory listing of `files`: every name once. */
  ghost predicate Enumerates<E>(listing: seq<string>, files: map<string, File<E>>) {
    && (forall k :: k in listing <==> k in files)
    && (forall i, j :: 0 <= i < j < |listing| ==> listing[i] != listing[j])
  }

  /** The file is a readable `.json` file whose entry the filter keeps. */
  predicate Selected<E>(files: map<string, File<E>>, keep: E -> bool, k: string)
    requires k in files
  {
    IsJsonName(k) && files[k].Readable? && keep(files[k].entry)
  }

  /** The names of the files that are collected. */
  function SelectedNames<E>(files: map<string, File<E>>, keep: E -> bool): set<string> {
    set k | k in files && Selected(files, keep, k)
  }

  /** The loop over the listing: non-`.json` names and unreadable files are
      skipped, and so are entries the filter rejects. */
  function Collect<E(!new)>(files: map<string, File<E>>, listing: seq<string>, keep: E -> bool): (r: seq<E>)
    requires forall k :: k in listing ==> k in files
    ensures forall x :: x in r <==>
              exists i :: 0 <= i < |listing| && Selected(files, keep, listing[i]) && files[listing[i]] == Readable(x)
    ensures |r| <= |listing|
  {
    if listing == [] then []
    else
      var rest := Collect(files, listing[1..], keep);
      assert forall i :: 1 <= i < |listing| ==> listing[i] == listing[1..][i - 1];
      if Selected(files, keep, listing[0]) then [files[listing[0]].entry] + rest else rest
  }

  /** Each selected file contributes exactly one entry. */
  lemma {:induction false} CollectCount<E(!new)>(files: map<string, File<E>>, listing: seq<string>, keep: E -> bool)
    requires forall k :: k in listing ==> k in files
    requires forall i, j :: 0 <= i < j < |listing| ==> listing[i] != listing[j]
    ensures |Collect(files, listing, keep)| == |set k | k in listing && Selected(files, keep, k)|
    decreases |listing|
  {
    if listing != [] {
      var h, t := listing[0], listing[1..];
      CollectCount(files, t, keep);
      var all := set k | k in listing && Selected(files, keep, k);
      var rest := set k | k in t && Selected(files, keep, k);
      assert h !in t;
      if Selected(files, keep, h) {
        assert all == {h} + rest;
      } else {
        assert all == rest;
      }
    }
  }

  /** The selected files, among the listed names, that hold the entry `x`. */
  ghost function Holding<E>(files: map<string, File<E>>, names: set<string>, keep: E -> bool, x: E): set<string> {
    set k | k in names && k in files && Selected(files, keep, k) && files[k] == Readable(x)
  }

  /** Peeling the first name off a listing that names it once. */
  lemma HoldingStep<E>(files: map<string, File<E>>, listing: seq<string>, keep: E -> bool, x: E)
    requires listing != [] && listing[0] !in listing[1..]
    ensures var h := listing[0];
      Holding(files, (set k | k in listing), keep, x) ==
        (if h in files && Selected(files, keep, h) && files[h] == Readable(x) then {h} else {})
        + Holding(files, (set k | k in listing[1..]), keep, x)
    ensures listing[0] !in Holding(files, (set k | k in listing[1..]), keep, x)
  {
    assert forall k :: k in listing <==> k == listing[0] || k in listing[1..];
  }

  /** Each selected file contributes its entry exactly once, so an entry
      occurs in the result as often as there are selected files holding it. */
  lemma {:induction false} CollectMultiset<E(!new)>(files: map<string, File<E>>, listing: seq<string>, keep: E -> bool, x: E)
    requires forall k :: k in listing ==> k in files
    requires forall i, j :: 0 <= i < j < |listing| ==> listing[i] != listing[j]
    ensures multiset(Collect(files, listing, keep))[x] == |Holding(files, (set k | k in listing), keep, x)|
    decreases |listing|
  {
    if listing == [] {
      assert Holding(files, (set k | k in listing), keep, x) == {};
    } else {
      var h, t := listing[0], listing[1..];
      assert h !in t by {
        assert forall i :: 0 <= i < |t| ==> t[i] == listing[i + 1];
      }
      CollectMultiset(files, t, keep, x);
      HoldingStep(files, listing, keep, x);
      var rest := Collect(files, t, keep);
      assert Collect(files, listing, keep) == (if Selected(files, keep, h) then [files[h].entry] else []) + rest;
    }
  }


  /** Ordered by timestamp, newest first. */
  predicate NewestFirst<E>(s: seq<E>, stamp: E -> int) {
    forall i, j :: 0 <= i < j < |s| ==> stamp(s[i]) >= stamp(s[j])
  }

  /** Places `x` in front of the first entry it is not older than. */
  function InsertNewest<E>(x: E, s: seq<E>, stamp: E -> int): (r: seq<E>)
    requires NewestFirst(s, stamp)
    ensures NewestFirst(r, stamp)
    ensures multiset(r) == multiset(s) + multiset{x}
    ensures |r| == |s| + 1
  {
    if s == [] then [x]
    else if stamp(x) >= stamp(s[0]) then [x] + s
    else
      var t := InsertNewest(x, s[1..], stamp);
      BoundedByHead(x, s, t, stamp);
      assert s == [s[0]] + s[1..];
      [s[0]] + t
  }

  /** Everything inserted behind the head of `s` is no newer than it. */
  lemma BoundedByHead<E>(x: E, s: seq<E>, t: seq<E>, stamp: E -> int)
    requires s != [] && NewestFirst(s, stamp) && stamp(x) < stamp(s[0])
    requires multiset(t) == multiset(s[1..]) + multiset{x}
    ensures forall j :: 0 <= j < |t| ==> stamp(s[0]) >= stamp(t[j])
  {
    forall j | 0 <= j < |t| ensures stamp(s[0]) >= stamp(t[j]) {
      assert t[j] in multiset(t);
      if t[j] != x {
        assert t[j] in multiset(s[1..]);
        var k :| 0 <= k < |s[1..]| && s[1..][k] == t[j];
        assert s[k + 1] == t[j];
      }
    }
  }

  /** The sort `(a, b) => time(b) - time(a)`: a permutation, newest first. */
  function SortNewestFirst<E>(s: seq<E>, stamp: E -> int): (r: seq<E>)
    ensures NewestFirst(r, stamp)
    ensures multiset(r) == multiset(s)
    ensures |r| == |s|
  {
    if s == [] then []
    else
      assert s == [s[0]] + s[1..];
      InsertNewest(s[0], SortNewestFirst(s[1..], stamp), stamp)
  }

  /** The whole retrieval: every selected file's entry exactly once, newest first. */
  function Retrieve<E(!new)>(files: map<string, File<E>>, listing: seq<string>, keep: E -> bool, stamp: E -> int): (r: seq<E>)
    requires Enumerates(listing, files)
    ensures NewestFirst(r, stamp)
    ensures forall x :: x in r <==> exists k :: k in files && Selected(files, keep, k) && files[k] == Readable(x)
    ensures |r| == |SelectedNames(files, keep)|
    ensures forall x :: multiset(r)[x] == |Holding(files, files.Keys, keep, x)|
  {
    var found := Collect(files, listing, keep);
    CollectCount(files, listing, keep);
    assert (set k | k in listing && Selected(files, keep, k)) == SelectedNames(files, keep);
    var r := SortNewestFirst(found, stamp);
    assert forall x :: x in r <==> x in multiset(found);
    CollectCounts(files, listing, keep);
    r
  }

  /** Over a complete listing, every entry is collected once per selected
      file holding it. */
  lemma CollectCounts<E(!new)>(files: map<string, File<E>>, listing: seq<string>, keep: E -> bool)
    requires Enumerates(listing, files)
    ensures forall x :: multiset(Collect(files, listing, keep))[x] == |Holding(files, files.Keys, keep, x)|
  {
    assert (set k | k in listing) == files.Keys;
    forall x ensures multiset(Collect(files, listing, keep))[x] == |Holding(files, files.Keys, keep, x)| {
      CollectMultiset(files, listing, keep, x);
    }
  }
}

=== FILE: modifier.dfy ===
/** The rule engine (src/mcps/command-history/modifier.ts): walks a JSON value
    and, rule by rule, rewrites every string leaf the rule's pattern matches,
    keeping a flat record of the (rule, leaf) matches of the latest call. */
module Modifier {
  import opened Wrappers
  import opened Json
  import opened Config

  /** The regular-expression engine, left abstract. `compiles(p)` says whether
      `p` is valid pattern source (otherwise constructing the expression
      throws), `matches(p, s)` whether `p` occurs in `s`, and
      `replaceAll(p, s, t)` is the global substitution of `t` for `p` in `s`. */
  datatype Regex = Regex(
    compiles: string -> bool,
    matches: (string, string) -> bool,
    replaceAll: (string, string, string) -> string)

  /** A global substitution changes nothing in a string the pattern does not match. */
  ghost predicate Lawful(re: Regex) {
    forall p, s, t :: !re.matches(p, s) ==> re.replaceAll(p, s, t) == s
  }

  /** The record pushed when a rule fires on one string leaf. */
  datatype Applied = Applied(kind: Kind, pattern: string, replacement: string)

  function Record(rule: Rule): Applied {
    Applied(rule.kind, rule.pattern, rule.replacement)
  }

  /** What one rule does to one string leaf. */
  function RewriteLeaf(re: Regex, rule: Rule, s: string): (r: string)
    ensures !re.matches(rule.pattern, s) ==> r == s
    ensures rule.kind.Unknown? ==> r == s
    ensures rule.kind == Mask && re.matches(rule.pattern, s) ==> r == rule.replacement
    ensures rule.kind == Edit && re.matches(rule.pattern, s) ==> r == re.replaceAll(rule.pattern, s, rule.replacement)
    ensures rule.kind == Enrich && re.matches(rule.pattern, s) ==>
              && |r| == |s| + 1 + |rule.replacement|
              && r[..|s|] == s && r[|s|] == ' ' && r[|s| + 1..] == rule.replacement
  {
    if !re.matches(rule.pattern, s) then s
    else
      match rule.kind
      case Mask => rule.replacement
      case Edit => re.replaceAll(rule.pattern, s, rule.replacement)
      case Enrich => s + " " + rule.replacement
      case Unknown(_) => s
  }

  /** Reference meaning of one rule on a sequence of leaves: each leaf is
      rewritten on its own. */
  function RewriteAll(re: Regex, rule: Rule, leaves: seq<string>): (r: seq<string>)
    ensures |r| == |leaves|
    ensures forall i :: 0 <= i < |leaves| ==> r[i] == RewriteLeaf(re, rule, leaves[i])
  {
    seq(|leaves|, i requires 0 <= i < |leaves| => RewriteLeaf(re, rule, leaves[i]))
  }

  /** Reference meaning of the record one rule leaves: one entry per matching
      leaf, in leaf order. */
  function RuleLog(re: Regex, rule: Rule, leaves: seq<string>): seq<Applied> {
    if leaves == [] then []
    else (if re.matches(rule.pattern, leaves[0]) then [Record(rule)] else []) + RuleLog(re, rule, leaves[1..])
  }

  lemma {:induction false} RewriteAllAppend(re: Regex, rule: Rule, a: seq<string>, b: seq<string>)
    ensures RewriteAll(re, rule, a + b) == RewriteAll(re, rule, a) + RewriteAll(re, rule, b)
  {
  }

  lemma {:induction false} RuleLogAppend(re: Regex, rule: Rule, a: seq<string>, b: seq<string>)
    ensures RuleLog(re, rule, a + b) == RuleLog(re, rule, a) + RuleLog(re, rule, b)
    decreases |a|
  {
    if a != [] {
      assert (a + b)[0] == a[0] && (a + b)[1..] == a[1..] + b;
      RuleLogAppend(re, rule, a[1..], b);
      var h := if re.matches(rule.pattern, a[0]) then [Record(rule)] else [];
      assert RuleLog(re, rule, a + b) == h + (RuleLog(re, rule, a[1..]) + RuleLog(re, rule, b));
      assert h + (RuleLog(re, rule, a[1..]) + RuleLog(re, rule, b)) == (h + RuleLog(re, rule, a[1..])) + RuleLog(re, rule, b);
    } else {
      assert a + b == b;
    }
  }

  /** The log of one rule holds only that rule's record, and is empty exactly
      when no leaf matches. */
  lemma {:induction false} RuleLogRecords(re: Regex, rule: Rule, leaves: seq<string>)
    ensures |RuleLog(re, rule, leaves)| <= |leaves|
    ensures forall k :: 0 <= k < |RuleLog(re, rule, leaves)| ==> RuleLog(re, rule, leaves)[k] == Record(rule)
    ensures RuleLog(re, rule, leaves) == [] <==> forall i :: 0 <= i < |leaves| ==> !re.matches(rule.pattern, leaves[i])
    decreases |leaves|
  {
    if leaves != [] {
      RuleLogRecords(re, rule, leaves[1..]);
      assert forall i :: 1 <= i < |leaves| ==> leaves[i] == leaves[1..][i - 1];
    }
  }

  /** One rule applied to a value, as the source's recursive walk does it:
      the value's shape is kept, each string leaf is rewritten on its own, and
      the records are one per matching leaf in depth-first order. */
  function ApplyRule(re: Regex, rule: Rule, v: Json): (r: (Json, seq<Applied>))
    ensures Skeleton(r.0) == Skeleton(v)
    ensures Leaves(r.0) == RewriteAll(re, rule, Leaves(v))
    ensures r.1 == RuleLog(re, rule, Leaves(v))
    decreases v, 1
  {
    match v
    case JString(s) =>
      assert [s][1..] == [];
      (JString(RewriteLeaf(re, rule, s)), if re.matches(rule.pattern, s) then [Record(rule)] else [])
    case JArray(a) =>
      var (a', log) := ApplyRuleElems(re, rule, a);
      (JArray(a'), log)
    case JObject(fs) =>
      var (fs', log) := ApplyRuleFields(re, rule, fs);
      (JObject(fs'), log)
    case _ => (v, [])
  }

  function ApplyRuleElems(re: Regex, rule: Rule, a: seq<Json>): (r: (seq<Json>, seq<Applied>))
    ensures SkeletonElems(r.0) == SkeletonElems(a)
    ensures LeavesElems(r.0) == RewriteAll(re, rule, LeavesElems(a))
    ensures r.1 == RuleLog(re, rule, LeavesElems(a))
    decreases a, 0
  {
    if a == [] then ([], [])
    else
      var (x, l1) := ApplyRule(re, rule, a[0]);
      var (xs, l2) := ApplyRuleElems(re, rule, a[1..]);
      var out := [x] + xs;
      assert out[0] == x && out[1..] == xs;
      RewriteAllAppend(re, rule, Leaves(a[0]), LeavesElems(a[1..]));
      RuleLogAppend(re, rule, Leaves(a[0]), LeavesElems(a[1..]));
      (out, l1 + l2)
  }

  function ApplyRuleFields(re: Regex, rule: Rule, fs: seq<(string, Json)>): (r: (seq<(string, Json)>, seq<Applied>))
    ensures SkeletonFields(r.0) == SkeletonFields(fs)
    ensures LeavesFields(r.0) == RewriteAll(re, rule, LeavesFields(fs))
    ensures r.1 == RuleLog(re, rule, LeavesFields(fs))
    decreases fs, 0
  {
    if fs == [] then ([], [])
    else
      var m := fs[0];
      assert m in fs && m.1 < m;
      var (x, l1) := ApplyRule(re, rule, m.1);
      var (xs, l2) := ApplyRuleFields(re, rule, fs[1..]);
      var out := [(m.0, x)] + xs;
      assert out[0] == (m.0, x) && out[1..] == xs;
      RewriteAllAppend(re, rule, Leaves(m.1), LeavesFields(fs[1..]));
      RuleLogAppend(re, rule, Leaves(m.1), LeavesFields(fs[1..]));
      (out, l1 + l2)
  }

  /** True when some enabled rule of the list has a pattern that does not compile. */
  predicate SomeBadPattern(re: Regex, rules: seq<Rule>) {
    exists i :: 0 <= i < |rules| && rules[i].enabled && !re.compiles(rules[i].pattern)
  }

  /** The state of the rule loop: the tree so far, the records so far, and
      whether a pattern failed to compile (which throws out of the loop). */
  datatype Pass = Pass(tree: Json, log: seq<Applied>, threw: bool)

  /** The rule loop of `process`. Disabled rules are skipped. An enabled rule
      whose pattern does not compile throws as soon as the walk reaches a
      string leaf. The value returned by the walk is kept for arrays and
      objects, which the source rewrites in place, and dropped for a string,
      which the source cannot rewrite in place. */
  function RunRules(re: Regex, rules: seq<Rule>, tree: Json, log: seq<Applied>): (p: Pass)
    ensures |p.log| >= |log| && p.log[..|log|] == log
    ensures Skeleton(p.tree) == Skeleton(tree)
    ensures |Leaves(p.tree)| == |Leaves(tree)|
    ensures tree.JString? ==> p.tree == tree
    ensures p.threw <==> |Leaves(tree)| > 0 && SomeBadPattern(re, rules)
    decreases |rules|
  {
    if rules == [] then Pass(tree, log, false)
    else
      var rule := rules[0];
      assert forall i :: 1 <= i < |rules| ==> rules[i] == rules[1..][i - 1];
      if !rule.enabled then
        RunRules(re, rules[1..], tree, log)
      else if |Leaves(tree)| > 0 && !re.compiles(rule.pattern) then
        Pass(tree, log, true)
      else
        var (t', l') := ApplyRule(re, rule, tree);
        RunRules(re, rules[1..], if tree.JString? then tree else t', log + l')
  }

  /** The rule engine's state: its rule list and the records of the latest call. */
  datatype Modifier = Modifier(rules: seq<Rule>, applied: seq<Applied>)

  function NewModifier(rules: seq<Rule>): (m: Modifier)
    ensures m.rules == rules && m.applied == []
  {
    Modifier(rules, [])
  }

  /** `process`: the records are rebuilt from empty; a falsy request comes back
      as it is; otherwise every enabled rule runs in list order over a copy of
      the request. A throw leaves the records of the rules that ran before it. */
  function Process(re: Regex, m: Modifier, request: Json): (r: (Modifier, Result<Json>))
    ensures r.0.rules == m.rules
    ensures Falsy(request) ==> r.0.applied == [] && r.1 == Ok(request)
    ensures r.1.Threw? <==> !Falsy(request) && |Leaves(request)| > 0 && SomeBadPattern(re, m.rules)
    ensures r.1.Ok? ==> Skeleton(r.1.value) == Skeleton(request)
    ensures r.1.Ok? && request.JString? ==> r.1.value == request
  {
    if Falsy(request) then (m.(applied := []), Ok(request))
    else
      var p := RunRules(re, m.rules, request, []);
      (m.(applied := p.log), if p.threw then Threw("SyntaxError: invalid regular expression") else Ok(p.tree))
  }

  /** `getAppliedModifications`: the records of the latest call. */
  function AppliedModifications(m: Modifier): seq<Applied> {
    m.applied
  }

  /** `addRule`: the rule goes to the end of the list. */
  function AddRule(m: Modifier, rule: Rule): (r: Modifier)
    ensures |r.rules| == |m.rules| + 1 && r.rules[|m.rules|] == rule
    ensures r.rules[..|m.rules|] == m.rules
    ensures r.applied == m.applied
  {
    m.(rules := m.rules + [rule])
  }

  /** The rules not named `name`, in their original order. */
  function WithoutName(rules: seq<Rule>, name: string): (r: seq<Rule>)
    ensures forall x :: x in r <==> x in rules && x.name != name
    ensures |r| <= |rules|
    ensures rules == r <==> forall i :: 0 <= i < |rules| ==> rules[i].name != name
  {
    if rules == [] then []
    else if rules[0].name == name then
      var t := WithoutName(rules[1..], name);
      assert |t| <= |rules[1..]|;
      t
    else
      var t := WithoutName(rules[1..], name);
      assert forall i :: 1 <= i < |rules| ==> rules[i] == rules[1..][i - 1];
      [rules[0]] + t
  }

  /** `removeRule`: every rule with the name goes, the others keep their order. */
  function RemoveRule(m: Modifier, name: string): (r: Modifier)
    ensures forall x :: x in r.rules <==> x in m.rules && x.name != name
    ensures r.applied == m.applied
  {
    m.(rules := WithoutName(m.rules, name))
  }

  /** The position of the first rule with the name, as `find` locates it. */
  function IndexOfName(rules: seq<Rule>, name: string): (r: Option<nat>)
    ensures r.None? <==> forall i :: 0 <= i < |rules| ==> rules[i].name != name
    ensures r.Some? ==> r.value < |rules| && rules[r.value].name == name
    ensures r.Some? ==> forall j :: 0 <= j < r.value ==> rules[j].name != name
  {
    if rules == [] then None
    else if rules[0].name == name then Some(0)
    else
      match IndexOfName(rules[1..], name)
      case None =>
        assert forall i :: 1 <= i < |rules| ==> rules[i] == rules[1..][i - 1];
        None
      case Some(i) => Some(i + 1)
  }

  /** `setRuleEnabled`: the first rule with the name, if any, gets the flag;
      every other rule is left as it is. */
  function SetRuleEnabled(m: Modifier, name: string, enabled: bool): (r: Modifier)
    ensures |r.rules| == |m.rules| && r.applied == m.applied
    ensures (forall i :: 0 <= i < |m.rules| ==> m.rules[i].name != name) ==> r == m
    ensures forall i :: (0 <= i < |m.rules| && m.rules[i].name == name
                         && (forall j :: 0 <= j < i ==> m.rules[j].name != name)) ==>
              (r.rules[i] == m.rules[i].(enabled := enabled)
               && forall j :: 0 <= j < |m.rules| && j != i ==> r.rules[j] == m.rules[j])
  {
    match IndexOfName(m.rules, name)
    case None => m
    case Some(i) => m.(rules := m.rules[i := m.rules[i].(enabled := enabled)])
  }
}

=== FILE: modifier_laws.dfy ===
/** Properties of the rule engine (src/mcps/command-history/modifier.ts). */
module ModifierLaws {
  import opened Wrappers
  import opened Json
  import opened Config
  import opened Modifier

  /** A rule that matches no leaf of a value leaves it exactly as it was and
      adds no record. */
  lemma NoMatchNoChange(re: Regex, rule: Rule, v: Json)
    requires forall i :: 0 <= i < |Leaves(v)| ==> !re.matches(rule.pattern, Leaves(v)[i])
    ensures ApplyRule(re, rule, v) == (v, [])
  {
    var (out, log) := ApplyRule(re, rule, v);
    assert Leaves(out) == Leaves(v);
    ShapeAndLeavesDetermine(out, v);
    RuleLogRecords(re, rule, Leaves(v));
  }

  /** A rule of an unrecognised kind rewrites nothing, yet still leaves one
      record per matching leaf, because the record is pushed before the kind
      is examined. */
  lemma UnknownKindRecordsOnly(re: Regex, rule: Rule, v: Json)
    requires rule.kind.Unknown?
    ensures ApplyRule(re, rule, v).0 == v
    ensures ApplyRule(re, rule, v).1 == RuleLog(re, rule, Leaves(v))
    ensures |ApplyRule(re, rule, v).1| > 0 <==> exists i :: 0 <= i < |Leaves(v)| && re.matches(rule.pattern, Leaves(v)[i])
  {
    var out := ApplyRule(re, rule, v).0;
    assert Leaves(out) == Leaves(v);
    ShapeAndLeavesDetermine(out, v);
    RuleLogRecords(re, rule, Leaves(v));
  }

  /** A mask overwrites a whole matching leaf with the replacement; nothing of
      the original leaf survives unless the replacement itself contains it. */
  lemma MaskOverwritesMatchedLeaves(re: Regex, rule: Rule, v: Json)
    requires rule.kind == Mask
    ensures forall i :: 0 <= i < |Leaves(v)| && re.matches(rule.pattern, Leaves(v)[i]) ==>
              Leaves(ApplyRule(re, rule, v).0)[i] == rule.replacement
    ensures forall i :: 0 <= i < |Leaves(v)| && !re.matches(rule.pattern, Leaves(v)[i]) ==>
              Leaves(ApplyRule(re, rule, v).0)[i] == Leaves(v)[i]
  {
  }

  /** An edit turns every leaf into its global substitution; with a lawful
      engine this holds for matching and non-matching leaves alike. */
  lemma EditIsGlobalSubstitution(re: Regex, rule: Rule, v: Json)
    requires Lawful(re) && rule.kind == Edit
    ensures forall i :: 0 <= i < |Leaves(v)| ==>
              Leaves(ApplyRule(re, rule, v).0)[i] == re.replaceAll(rule.pattern, Leaves(v)[i], rule.replacement)
  {
  }

  /** An enrich appends a space and the replacement to every matching leaf,
      wherever in the leaf the pattern matched. */
  lemma EnrichAppends(re: Regex, rule: Rule, v: Json)
    requires rule.kind == Enrich
    ensures forall i :: 0 <= i < |Leaves(v)| && re.matches(rule.pattern, Leaves(v)[i]) ==>
              Leaves(ApplyRule(re, rule, v).0)[i] == Leaves(v)[i] + " " + rule.replacement
    ensures forall i :: 0 <= i < |Leaves(v)| && !re.matches(rule.pattern, Leaves(v)[i]) ==>
              Leaves(ApplyRule(re, rule, v).0)[i] == Leaves(v)[i]
  {
  }

  /** Shape preservation spelled out: arrays keep their length, objects keep
      their keys in order, null, numbers and booleans are untouched. */
  lemma ApplyRuleKeepsShape(re: Regex, rule: Rule, v: Json)
    ensures var out := ApplyRule(re, rule, v).0;
      && (v.JArray? ==> out.JArray? && |out.elems| == |v.elems|)
      && (v.JObject? ==> out.JObject? && Keys(out.fields) == Keys(v.fields))
      && (v.JNull? || v.JBool? || v.JNumber? ==> out == v)
      && |Leaves(out)| == |Leaves(v)|
  {
  }

  /** The enabled rules of a list, in order. */
  function EnabledOnly(rules: seq<Rule>): (r: seq<Rule>)
    ensures forall x :: x in r <==> x in rules && x.enabled
  {
    if rules == [] then []
    else if rules[0].enabled then [rules[0]] + EnabledOnly(rules[1..])
    else EnabledOnly(rules[1..])
  }

  /** Disabled rules are skipped entirely: running a list is running its
      enabled rules. */
  lemma {:induction false} DisabledRulesIgnored(re: Regex, rules: seq<Rule>, tree: Json, log: seq<Applied>)
    ensures RunRules(re, rules, tree, log) == RunRules(re, EnabledOnly(rules), tree, log)
    decreases |rules|
  {
    if rules != [] {
      if rules[0].enabled {
        var e := EnabledOnly(rules);
        assert e[0] == rules[0] && e[1..] == EnabledOnly(rules[1..]);
        var rule := rules[0];
        if |Leaves(tree)| > 0 && !re.compiles(rule.pattern) {
        } else {
          var (t', l') := ApplyRule(re, rule, tree);
          DisabledRulesIgnored(re, rules[1..], if tree.JString? then tree else t', log + l');
        }
      } else {
        DisabledRulesIgnored(re, rules[1..], tree, log);
      }
    }
  }

  /** With every rule disabled, `process` returns the request and records nothing. */
  lemma AllDisabledIsIdentity(re: Regex, m: Modifier, request: Json)
    requires forall i :: 0 <= i < |m.rules| ==> !m.rules[i].enabled
    ensures Process(re, m, request).1 == Ok(request)
    ensures Process(re, m, request).0.applied == []
  {
    DisabledRulesIgnored(re, m.rules, request, []);
    assert EnabledOnly(m.rules) == [];
  }

  /** Rules apply in sequence: running `a + b` runs `b` on the tree and the
      records `a` left behind, unless `a` threw. */
  lemma {:induction false} RunRulesSequential(re: Regex, a: seq<Rule>, b: seq<Rule>, tree: Json, log: seq<Applied>)
    ensures RunRules(re, a + b, tree, log) ==
      var p := RunRules(re, a, tree, log);
      if p.threw then p else RunRules(re, b, p.tree, p.log)
    decreases |a|
  {
    if a == [] {
      assert a + b == b;
    } else {
      assert (a + b)[0] == a[0] && (a + b)[1..] == a[1..] + b;
      var rule := a[0];
      if !rule.enabled {
        RunRulesSequential(re, a[1..], b, tree, log);
      } else if |Leaves(tree)| > 0 && !re.compiles(rule.pattern) {
      } else {
        var (t', l') := ApplyRule(re, rule, tree);
        RunRulesSequential(re, a[1..], b, if tree.JString? then tree else t', log + l');
      }
    }
  }

  /** Chained application: the second of two rules sees the first one's output,
      not the original request. */
  lemma ChainedRules(re: Regex, r1: Rule, r2: Rule, tree: Json)
    requires r1.enabled && r2.enabled && re.compiles(r1.pattern) && re.compiles(r2.pattern)
    requires !tree.JString?
    ensures var (t1, l1) := ApplyRule(re, r1, tree);
      var (t2, l2) := ApplyRule(re, r2, t1);
      && RunRules(re, [r1, r2], tree, []) == Pass(t2, l1 + l2, false)
      && Leaves(t2) == RewriteAll(re, r2, RewriteAll(re, r1, Leaves(tree)))
      && l2 == RuleLog(re, r2, RewriteAll(re, r1, Leaves(tree)))
  {
    var (t1, l1) := ApplyRule(re, r1, tree);
    var (t2, l2) := ApplyRule(re, r2, t1);
    assert [r1, r2][1..] == [r2];
    assert [r2][1..] == [];
    assert Skeleton(t1) == Skeleton(tree);
    assert !t1.JString?;
    assert [] + l1 == l1;
    assert RunRules(re, [r2], t1, l1) == RunRules(re, [], t2, l1 + l2);
  }

  /** The record was pushed by one of the enabled rules of the list. */
  predicate FromEnabledRule(rules: seq<Rule>, a: Applied) {
    exists i :: 0 <= i < |rules| && rules[i].enabled && a == Record(rules[i])
  }

  /** Every record of a rule loop belongs to one of the enabled rules. */
  lemma {:induction false} RecordsComeFromEnabledRules(re: Regex, rules: seq<Rule>, tree: Json, log: seq<Applied>)
    ensures var p := RunRules(re, rules, tree, log);
      forall k :: |log| <= k < |p.log| ==> FromEnabledRule(rules, p.log[k])
    decreases |rules|
  {
    var p := RunRules(re, rules, tree, log);
    if rules != [] {
      var rule := rules[0];
      var rest := rules[1..];
      assert forall a :: FromEnabledRule(rest, a) ==> FromEnabledRule(rules, a) by {
        forall a | FromEnabledRule(rest, a) ensures FromEnabledRule(rules, a) {
          var i :| 0 <= i < |rest| && rest[i].enabled && a == Record(rest[i]);
          assert rules[i + 1] == rest[i];
        }
      }
      if !rule.enabled {
        RecordsComeFromEnabledRules(re, rest, tree, log);
        assert p == RunRules(re, rest, tree, log);
        forall k | |log| <= k < |p.log| ensures FromEnabledRule(rules, p.log[k]) {
          assert FromEnabledRule(rest, p.log[k]);
        }
      } else if |Leaves(tree)| > 0 && !re.compiles(rule.pattern) {
      } else {
        var (t', l') := ApplyRule(re, rule, tree);
        RuleLogRecords(re, rule, Leaves(tree));
        var next := if tree.JString? then tree else t';
        RecordsComeFromEnabledRules(re, rest, next, log + l');
        assert p == RunRules(re, rest, next, log + l');
        forall k | |log| <= k < |p.log|
          ensures FromEnabledRule(rules, p.log[k])
        {
          if k < |log + l'| {
            assert p.log[k] == (log + l')[k] == l'[k - |log|] == Record(rules[0]);
          } else {
            assert FromEnabledRule(rest, p.log[k]);
          }
        }
      }
    }
  }

  /** The records a top-level string collects: one per enabled rule whose
      pattern matches it, in rule order. */
  function StringRecords(re: Regex, rules: seq<Rule>, s: string): seq<Applied> {
    if rules == [] then []
    else (if rules[0].enabled && re.matches(rules[0].pattern, s) then [Record(rules[0])] else [])
         + StringRecords(re, rules[1..], s)
  }

  /** A non-empty string request comes back unmodified even when rules match
      it, because the walk's result is discarded; the records are still kept. */
  lemma TopLevelStringUnchanged(re: Regex, m: Modifier, s: string)
    requires s != "" && !SomeBadPattern(re, m.rules)
    ensures Process(re, m, JString(s)).1 == Ok(JString(s))
    ensures AppliedModifications(Process(re, m, JString(s)).0) == StringRecords(re, m.rules, s)
  {
    StringLoop(re, m.rules, s, []);
  }

  /** One turn of the loop on a bare string: the string stays and the rule's
      record, if it matches, is appended. */
  lemma StringStep(re: Regex, rules: seq<Rule>, s: string, log: seq<Applied>)
    requires rules != [] && (rules[0].enabled ==> re.compiles(rules[0].pattern))
    ensures RunRules(re, rules, JString(s), log) ==
      RunRules(re, rules[1..], JString(s),
               log + if rules[0].enabled && re.matches(rules[0].pattern, s) then [Record(rules[0])] else [])
  {
    if !rules[0].enabled {
      assert log + [] == log;
    }
  }

  /** Valid patterns stay valid for the tail of the list. */
  lemma NoBadPatternTail(re: Regex, rules: seq<Rule>)
    requires rules != [] && !SomeBadPattern(re, rules)
    ensures !SomeBadPattern(re, rules[1..])
    ensures rules[0].enabled ==> re.compiles(rules[0].pattern)
  {
    assert forall i :: 1 <= i < |rules| ==> rules[i] == rules[1..][i - 1];
  }

  lemma {:induction false} StringLoop(re: Regex, rules: seq<Rule>, s: string, log: seq<Applied>)
    requires !SomeBadPattern(re, rules)
    ensures RunRules(re, rules, JString(s), log) == Pass(JString(s), log + StringRecords(re, rules, s), false)
    decreases |rules|
  {
    if rules == [] {
      assert log + [] == log;
    } else {
      NoBadPatternTail(re, rules);
      var rest := rules[1..];
      var own := if rules[0].enabled && re.matches(rules[0].pattern, s) then [Record(rules[0])] else [];
      var later := StringRecords(re, rest, s);
      assert (log + own) + later == log + StringRecords(re, rules, s) by {
        assert StringRecords(re, rules, s) == own + later;
        assert (log + own) + later == log + (own + later);
      }
      StringStep(re, rules, s, log);
      StringLoop(re, rest, s, log + own);
    }
  }

  /** Reference meaning of a rule list on the flat list of leaves: each
      enabled rule in turn rewrites every leaf the previous rules produced,
      and contributes one record per leaf it matches. */
  function Pipeline(re: Regex, rules: seq<Rule>, leaves: seq<string>): (r: (seq<string>, seq<Applied>))
    ensures |r.0| == |leaves|
    decreases |rules|
  {
    if rules == [] then (leaves, [])
    else if !rules[0].enabled then Pipeline(re, rules[1..], leaves)
    else
      var next := RewriteAll(re, rules[0], leaves);
      var rest := Pipeline(re, rules[1..], next);
      (rest.0, RuleLog(re, rules[0], leaves) + rest.1)
  }

  /** The tree walk agrees with the reference: on a value that is not a bare
      string, with every enabled pattern valid, the rule loop's leaves are the
      pipeline's leaves and its new records are the pipeline's records. */
  lemma {:induction false} RunRulesIsPipeline(re: Regex, rules: seq<Rule>, tree: Json, log: seq<Applied>)
    requires !tree.JString? && !SomeBadPattern(re, rules)
    ensures var p := RunRules(re, rules, tree, log);
      var q := Pipeline(re, rules, Leaves(tree));
      !p.threw && Leaves(p.tree) == q.0 && p.log == log + q.1
    decreases |rules|
  {
    if rules == [] {
      assert log + [] == log;
    } else {
      var rule := rules[0];
      assert forall i :: 1 <= i < |rules| ==> rules[i] == rules[1..][i - 1];
      assert !SomeBadPattern(re, rules[1..]);
      if !rule.enabled {
        RunRulesIsPipeline(re, rules[1..], tree, log);
      } else {
        assert re.compiles(rule.pattern);
        var (t', l') := ApplyRule(re, rule, tree);
        assert Skeleton(t') == Skeleton(tree);
        RunRulesIsPipeline(re, rules[1..], t', log + l');
        var q := Pipeline(re, rules[1..], Leaves(t'));
        assert (log + l') + q.1 == log + (l' + q.1);
      }
    }
  }

  /** So `process`, on a truthy request that is not a bare string and whose
      enabled patterns are valid, succeeds with a value of the request's shape
      whose leaves, and whose records, are exactly the pipeline's. Together
      with `Json.ShapeAndLeavesDetermine` this fixes the result entirely. */
  lemma ProcessIsPipeline(re: Regex, m: Modifier, request: Json)
    requires !Falsy(request) && !request.JString? && !SomeBadPattern(re, m.rules)
    ensures var (m', r) := Process(re, m, request);
      var q := Pipeline(re, m.rules, Leaves(request));
      r.Ok? && Skeleton(r.value) == Skeleton(request) && Leaves(r.value) == q.0
      && AppliedModifications(m') == q.1
  {
    RunRulesIsPipeline(re, m.rules, request, []);
    assert [] + Pipeline(re, m.rules, Leaves(request)).1 == Pipeline(re, m.rules, Leaves(request)).1;
  }

  /** Keys are never rewritten, so `process` turns a value with no repeated
      key into another such value. */
  lemma ProcessKeepsWellFormed(re: Regex, m: Modifier, request: Json)
    requires WellFormed(request)
    ensures Process(re, m, request).1.Ok? ==> WellFormed(Process(re, m, request).1.value)
  {
    var r := Process(re, m, request).1;
    if r.Ok? {
      SkeletonKeepsWellFormed(request);
      SkeletonKeepsWellFormed(r.value);
    }
  }

  /** The records are rebuilt on every call: whatever an earlier call left,
      processing the same request from two states gives the same records. */
  lemma RecordsNotCumulative(re: Regex, m1: Modifier, m2: Modifier, request: Json)
    requires m1.rules == m2.rules
    ensures Process(re, m1, request) == (Process(re, m1, request).0, Process(re, m2, request).1)
    ensures Process(re, m1, request).0 == Process(re, m2, request).0.(applied := Process(re, m1, request).0.applied)
    ensures AppliedModifications(Process(re, m1, request).0) == AppliedModifications(Process(re, m2, request).0)
  {
  }

  /** `removeRule` keeps the surviving rules in order: it distributes over concatenation. */
  lemma {:induction false} WithoutNameAppend(a: seq<Rule>, b: seq<Rule>, name: string)
    ensures WithoutName(a + b, name) == WithoutName(a, name) + WithoutName(b, name)
    decreases |a|
  {
    if a == [] {
      assert a + b == b;
    } else {
      assert (a + b)[0] == a[0] && (a + b)[1..] == a[1..] + b;
      WithoutNameAppend(a[1..], b, name);
    }
  }

  /** Removing a name is idempotent. */
  lemma {:induction false} RemoveRuleIdempotent(m: Modifier, name: string)
    ensures RemoveRule(RemoveRule(m, name), name) == RemoveRule(m, name)
  {
  }

  /** Adding a rule and then removing its name is the same as removing the
      name alone. */
  lemma RemoveAfterAdd(m: Modifier, rule: Rule)
    ensures RemoveRule(AddRule(m, rule), rule.name) == RemoveRule(m, rule.name)
  {
    WithoutNameAppend(m.rules, [rule], rule.name);
    assert WithoutName([rule], rule.name) == [];
  }

  /** Re-setting the first rule with a name to its former flag undoes `setRuleEnabled`. */
  lemma SetRuleEnabledUndo(m: Modifier, name: string, enabled: bool, i: nat)
    requires i < |m.rules| && m.rules[i].name == name
    requires forall j :: 0 <= j < i ==> m.rules[j].name != name
    ensures SetRuleEnabled(SetRuleEnabled(m, name, enabled), name, m.rules[i].enabled) == m
  {
  }
}

=== FILE: storage.dfy ===
/** The history store (src/mcps/command-history/storage.ts): two directories of
    JSON entry files, one for commands and one for responses, with filtered
    retrieval and age-based deletion of command entries. Each directory is a
    map from file name to file. */
module Storage {
  import opened Wrappers
  import opened Json
  import opened Config
  import opened Modifier
  import opened Listing

  /** Milliseconds in a day: the retention window is counted in whole days. */
  const DAY_MS: int := 86400000
  /** The directory under the home directory that holds every project's history. */
  const HISTORY_DIR := ".vibehistory"
  /** The tag that turns the commands directory name into the responses one. */
  const RESPONSE_TAG := ".vibeR"

  /** What the store reads from its environment when it is built: the home
      directory, the working directory, and the `name` of package.json
      (`None` when the file is missing, unreadable or has no name). */
  datatype Env = Env(home: string, cwd: string, packageName: Option<string>)

  /** The last component of a path: the longest suffix without a separator. */
  function Basename(p: string): (r: string)
    ensures forall i :: 0 <= i < |r| ==> r[i] != '/'
    ensures |r| <= |p| && p[|p| - |r|..] == r
    ensures |r| < |p| ==> p[|p| - |r| - 1] == '/'
  {
    if p == [] then []
    else if p[|p| - 1] == '/' then []
    else
      var r := Basename(p[..|p| - 1]) + [p[|p| - 1]];
      assert p[..|p| - 1][|p| - |r|..] + [p[|p| - 1]] == p[|p| - |r|..];
      r
  }

  /** The package name when it is a non-empty string, else the name of the
      working directory. */
  function ProjectName(env: Env): (r: string)
    ensures env.packageName.Some? && env.packageName.value != "" ==> r == env.packageName.value
    ensures !(env.packageName.Some? && env.packageName.value != "") ==>
              && |r| <= |env.cwd| && env.cwd[|env.cwd| - |r|..] == r
              && (forall i :: 0 <= i < |r| ==> r[i] != '/')
              && (|r| < |env.cwd| ==> env.cwd[|env.cwd| - |r| - 1] == '/')
  {
    match env.packageName
    case Some(n) => if n != "" then n else Basename(env.cwd)
    case None => Basename(env.cwd)
  }

  /** Path joining, as plain concatenation with a separator. */
  function Join(a: string, b: string): string {
    a + "/" + b
  }

  /** Resolving a path against the working directory: an absolute path stands,
      an empty one is the working directory, a relative one is appended. */
  function Resolve(cwd: string, p: string): string {
    if p == "" then cwd
    else if p[0] == '/' then p
    else Join(cwd, p)
  }

  /** Where command files go: in home mode a directory named after the
      project under the shared history directory, otherwise the configured
      path resolved against the working directory. */
  function CommandsDir(cfg: StorageConfig, env: Env): (r: string)
    ensures cfg.useHomeDir ==> |r| > |env.home| + |HISTORY_DIR| + 1
    ensures cfg.useHomeDir ==> r[..|env.home| + |HISTORY_DIR| + 2] == env.home + "/" + HISTORY_DIR + "/"
    ensures cfg.useHomeDir ==> r[|env.home| + |HISTORY_DIR| + 2..] == ProjectName(env)
    ensures !cfg.useHomeDir && cfg.path == "" ==> r == env.cwd
    ensures !cfg.useHomeDir && cfg.path != "" && cfg.path[0] == '/' ==> r == cfg.path
    ensures !cfg.useHomeDir && cfg.path != "" && cfg.path[0] != '/' ==>
              && |r| == |env.cwd| + 1 + |cfg.path|
              && r[..|env.cwd|] == env.cwd && r[|env.cwd|] == '/' && r[|env.cwd| + 1..] == cfg.path
  {
    if cfg.useHomeDir then Join(Join(env.home, HISTORY_DIR), ProjectName(env))
    else Resolve(env.cwd, cfg.path)
  }

  /** Where response files go: the same derivation with the tag appended to
      the last component, so the name always ends in the tag. */
  function ResponsesDir(cfg: StorageConfig, env: Env): (r: string)
    ensures |r| >= |RESPONSE_TAG| && r[|r| - |RESPONSE_TAG|..] == RESPONSE_TAG
    ensures cfg.useHomeDir ==> |r| > |env.home| + |HISTORY_DIR| + 2
    ensures cfg.useHomeDir ==> r[..|env.home| + |HISTORY_DIR| + 2] == env.home + "/" + HISTORY_DIR + "/"
  {
    if cfg.useHomeDir then Join(Join(env.home, HISTORY_DIR), ProjectName(env) + RESPONSE_TAG)
    else Resolve(env.cwd, cfg.path + RESPONSE_TAG)
  }

  /** The responses directory sits beside the commands directory, its name
      tagged; as plain strings, only an empty configured path (outside home
      mode) puts it inside instead. Either way the two paths differ. Path
      normalisation, which this model leaves out, also nests it for a
      configured path of `.` or one ending in a separator. */
  lemma ResponsesBesideCommands(cfg: StorageConfig, env: Env)
    ensures cfg.useHomeDir || cfg.path != "" ==> ResponsesDir(cfg, env) == CommandsDir(cfg, env) + RESPONSE_TAG
    ensures !cfg.useHomeDir && cfg.path == "" ==> ResponsesDir(cfg, env) == Join(CommandsDir(cfg, env), RESPONSE_TAG)
    ensures ResponsesDir(cfg, env) != CommandsDir(cfg, env)
  {
  }

  /** A saved command: the request before and after the rules, and the
      records of the rules that fired. Timestamps are milliseconds. */
  datatype CommandEntry = CommandEntry(
    id: string,
    timestamp: int,
    sessionId: string,
    originalCommand: Json,
    modifiedCommand: Json,
    modifications: seq<Applied>)

  /** A saved response, tagged with the id of the command it answers. */
  datatype ResponseEntry = ResponseEntry(
    id: string,
    timestamp: int,
    sessionId: string,
    commandId: string,
    response: Json)

  /** A directory: missing (reading it fails) or a map from names to files. */
  datatype Dir<E> = Absent | Present(files: map<string, File<E>>)

  datatype Store = Store(
    config: StorageConfig,
    commandsDir: string,
    responsesDir: string,
    commands: Dir<CommandEntry>,
    responses: Dir<ResponseEntry>)

  /** The name an entry is saved under, `<sessionId>_<id>.json`. */
  function FileName(sessionId: string, id: string): (r: string)
    ensures IsJsonName(r)
    ensures |r| == |sessionId| + |id| + 6
    ensures r[..|sessionId|] == sessionId && r[|sessionId|] == '_'
    ensures r[|sessionId| + 1..|r| - 5] == id
  {
    sessionId + "_" + id + ".json"
  }

  /** Building the store: the directory paths are derived and both directories
      are created if missing; an existing one is kept as it is. */
  function NewStore(cfg: StorageConfig, env: Env, commands: Dir<CommandEntry>, responses: Dir<ResponseEntry>): (s: Store)
    ensures s.config == cfg
    ensures s.commandsDir == CommandsDir(cfg, env) && s.responsesDir == ResponsesDir(cfg, env)
    ensures s.commands == (if commands.Present? then commands else Present(map[]))
    ensures s.responses == (if responses.Present? then responses else Present(map[]))
  {
    Store(cfg, CommandsDir(cfg, env), ResponsesDir(cfg, env), EnsureDir(commands), EnsureDir(responses))
  }

  function EnsureDir<E>(d: Dir<E>): Dir<E> {
    if d.Present? then d else Present(map[])
  }

  /** The moment before which a command entry is expired. */
  function Cutoff(cfg: StorageConfig, now: int): int {
    now - cfg.retentionDays * DAY_MS
  }

  /** A readable `.json` command file whose entry is strictly older than the cutoff. */
  predicate Expired(files: map<string, File<CommandEntry>>, k: string, cutoff: int)
    requires k in files
  {
    IsJsonName(k) && files[k].Readable? && files[k].entry.timestamp < cutoff
  }

  /** Every readable `.json` command file sits under the name its entry is
      saved under. */
  predicate Canonical(files: map<string, File<CommandEntry>>) {
    forall k :: k in files && IsJsonName(k) && files[k].Readable? ==>
      k == FileName(files[k].entry.sessionId, files[k].entry.id)
  }

  /** `cleanupOldEntries`: with retention on, every readable command entry
      older than the cutoff has the file named after it removed. The name is
      rebuilt from the entry, so a misnamed file is not the one removed. A
      missing directory reads as no entries. Responses are never touched. */
  function Cleanup(s: Store, now: int): (r: Store)
    ensures r.config == s.config && r.responses == s.responses
    ensures r.commandsDir == s.commandsDir && r.responsesDir == s.responsesDir
    ensures r.commands.Present? <==> s.commands.Present?
    ensures s.config.retentionDays <= 0 ==> r == s
    ensures r.commands.Present? ==> forall k :: k in r.commands.files ==>
              k in s.commands.files && r.commands.files[k] == s.commands.files[k]
    ensures r.commands.Present? ==> forall k :: k in s.commands.files && !IsJsonName(k) ==> k in r.commands.files
  {
    if s.config.retentionDays <= 0 then s
    else
      match s.commands
      case Absent => s
      case Present(files) =>
        var cutoff := Cutoff(s.config, now);
        var doomed := set k | k in files && Expired(files, k, cutoff) ::
                        FileName(files[k].entry.sessionId, files[k].entry.id);
        s.(commands := Present(files - doomed))
  }

  /** `saveCommand`: the entry is written under its name; when the write
      fails (or the directory is gone) nothing changes and nothing is thrown.
      A successful write with retention on is followed by cleanup. */
  function SaveCommand(s: Store, entry: CommandEntry, now: int, writeFails: bool): (r: Store)
    ensures r.config == s.config && r.responses == s.responses
    ensures r.commandsDir == s.commandsDir && r.responsesDir == s.responsesDir
    ensures s.commands.Absent? || writeFails ==> r == s
    ensures s.commands.Present? && !writeFails && s.config.retentionDays <= 0 ==>
              r.commands == Present(s.commands.files[FileName(entry.sessionId, entry.id) := Readable(entry)])
  {
    if s.commands.Absent? || writeFails then s
    else
      var written := s.(commands := Present(s.commands.files[FileName(entry.sessionId, entry.id) := Readable(entry)]));
      if s.config.retentionDays > 0 then Cleanup(written, now) else written
  }

  /** `saveResponse`: the same write into the responses directory, never
      followed by cleanup. */
  function SaveResponse(s: Store, entry: ResponseEntry, writeFails: bool): (r: Store)
    ensures r.config == s.config && r.commands == s.commands
    ensures r.commandsDir == s.commandsDir && r.responsesDir == s.responsesDir
    ensures s.responses.Absent? || writeFails ==> r == s
    ensures s.responses.Present? && !writeFails ==>
              r.responses == Present(s.responses.files[FileName(entry.sessionId, entry.id) := Readable(entry)])
  {
    if s.responses.Absent? || writeFails then s
    else s.(responses := Present(s.responses.files[FileName(entry.sessionId, entry.id) := Readable(entry)]))
  }

  /** The filter of `getEntries`. An empty session id does not filter. */
  datatype CommandFilter = CommandFilter(sessionId: Option<string>, fromDate: Option<int>, toDate: Option<int>)

  /** The filter of `getResponses`. Empty session or command ids do not filter. */
  datatype ResponseFilter = ResponseFilter(
    sessionId: Option<string>,
    commandId: Option<string>,
    fromDate: Option<int>,
    toDate: Option<int>)

  /** A string filter that is present and non-empty. */
  predicate Given(o: Option<string>) {
    o.Some? && o.value != ""
  }

  /** Both date bounds are inclusive. */
  predicate InRange(timestamp: int, fromDate: Option<int>, toDate: Option<int>) {
    (fromDate.None? || timestamp >= fromDate.value) && (toDate.None? || timestamp <= toDate.value)
  }

  /** Whether `getEntries` keeps an entry: no filter keeps everything; a
      filter skips an entry of another session (when its session is given)
      and one outside either date bound. */
  function KeepCommand(filter: Option<CommandFilter>, e: CommandEntry): (keep: bool)
    ensures filter.None? ==> keep
    ensures filter.Some? ==> (keep <==>
              && (Given(filter.value.sessionId) ==> e.sessionId == filter.value.sessionId.value)
              && (filter.value.fromDate.Some? ==> filter.value.fromDate.value <= e.timestamp)
              && (filter.value.toDate.Some? ==> e.timestamp <= filter.value.toDate.value))
  {
    match filter
    case None => true
    case Some(f) =>
      && (!Given(f.sessionId) || e.sessionId == f.sessionId.value)
      && InRange(e.timestamp, f.fromDate, f.toDate)
  }

  /** Whether `getResponses` keeps an entry: as for commands, with the
      command id as one more exact-match filter. */
  function KeepResponse(filter: Option<ResponseFilter>, e: ResponseEntry): (keep: bool)
    ensures filter.None? ==> keep
    ensures filter.Some? ==> (keep <==>
              && (Given(filter.value.sessionId) ==> e.sessionId == filter.value.sessionId.value)
              && (Given(filter.value.commandId) ==> e.commandId == filter.value.commandId.value)
              && (filter.value.fromDate.Some? ==> filter.value.fromDate.value <= e.timestamp)
              && (filter.value.toDate.Some? ==> e.timestamp <= filter.value.toDate.value))
  {
    match filter
    case None => true
    case Some(f) =>
      && (!Given(f.sessionId) || e.sessionId == f.sessionId.value)
      && (!Given(f.commandId) || e.commandId == f.commandId.value)
      && InRange(e.timestamp, f.fromDate, f.toDate)
  }

  function CommandTime(e: CommandEntry): int {
    e.timestamp
  }

  function ResponseTime(e: ResponseEntry): int {
    e.timestamp
  }

  /** `getEntries`: the readable `.json` command entries the filter keeps,
      each file once, newest first; a missing directory gives none. `listing`
      is the order in which the directory is read. */
  function GetEntries(s: Store, listing: seq<string>, filter: Option<CommandFilter>): (r: seq<CommandEntry>)
    requires s.commands.Present? ==> Enumerates(listing, s.commands.files)
    ensures s.commands.Absent? ==> r == []
    ensures NewestFirst(r, CommandTime)
    ensures s.commands.Present? ==> forall x :: x in r <==>
              exists k :: k in s.commands.files && IsJsonName(k) && s.commands.files[k] == Readable(x) && KeepCommand(filter, x)
    ensures s.commands.Present? ==> |r| == |SelectedNames(s.commands.files, e => KeepCommand(filter, e))|
    ensures s.commands.Present? ==> forall x ::
              multiset(r)[x] == |Holding(s.commands.files, s.commands.files.Keys, e => KeepCommand(filter, e), x)|
  {
    match s.commands
    case Absent => []
    case Present(files) =>
      Retrieve(files, listing, e => KeepCommand(filter, e), CommandTime)
  }

  /** `getResponses`: as `getEntries`, over the responses directory, with the
      extra command-id filter. */
  function GetResponses(s: Store, listing: seq<string>, filter: Option<ResponseFilter>): (r: seq<ResponseEntry>)
    requires s.responses.Present? ==> Enumerates(listing, s.responses.files)
    ensures s.responses.Absent? ==> r == []
    ensures NewestFirst(r, ResponseTime)
    ensures s.responses.Present? ==> forall x :: x in r <==>
              exists k :: k in s.responses.files && IsJsonName(k) && s.responses.files[k] == Readable(x) && KeepResponse(filter, x)
    ensures s.responses.Present? ==> |r| == |SelectedNames(s.responses.files, e => KeepResponse(filter, e))|
    ensures s.responses.Present? ==> forall x ::
              multiset(r)[x] == |Holding(s.responses.files, s.responses.files.Keys, e => KeepResponse(filter, e), x)|
  {
    match s.responses
    case Absent => []
    case Present(files) =>
      Retrieve(files, listing, e => KeepResponse(filter, e), ResponseTime)
  }
}

=== FILE: storage_laws.dfy ===
/** Properties of the history store (src/mcps/command-history/storage.ts). */
module StorageLaws {
  import opened Wrappers
  import opened Listing
  import opened Storage

  /** Within one session, distinct ids give distinct file names. */
  lemma FileNameDistinctIds(session: string, a: string, b: string)
    requires a != b
    ensures FileName(session, a) != FileName(session, b)
  {
    var n := |session| + 1;
    if |a| == |b| {
      var i :| 0 <= i < |a| && a[i] != b[i];
      assert FileName(session, a)[n + i] == a[i];
      assert FileName(session, b)[n + i] == b[i];
    } else {
      assert |FileName(session, a)| != |FileName(session, b)|;
    }
  }

  /** Ids in the generator's format contain no underscore. */
  predicate NoUnderscore(id: string) {
    forall i :: 0 <= i < |id| ==> id[i] != '_'
  }

  /** The position of the last occurrence of `c` in `x`. */
  function LastIndexOf(x: string, c: char): (r: Option<nat>)
    ensures r.Some? ==> r.value < |x| && x[r.value] == c
    ensures r.Some? ==> forall j :: r.value < j < |x| ==> x[j] != c
    ensures r.None? ==> forall j :: 0 <= j < |x| ==> x[j] != c
  {
    if x == [] then None
    else if x[|x| - 1] == c then Some(|x| - 1)
    else LastIndexOf(x[..|x| - 1], c)
  }

  /** Reads a file name back into its session id and entry id, splitting at
      the last underscore. */
  function ParseFileName(name: string): Option<(string, string)> {
    if !IsJsonName(name) then None
    else
      var stem := name[..|name| - 5];
      match LastIndexOf(stem, '_')
      case None => None
      case Some(i) => Some((stem[..i], stem[i + 1..]))
  }

  /** For ids in the generator's format the name reads back into the same
      session and id. */
  lemma {:induction false} ParseFileNameRoundTrip(session: string, id: string)
    requires NoUnderscore(id)
    ensures ParseFileName(FileName(session, id)) == Some((session, id))
  {
    var name := FileName(session, id);
    var stem := session + "_" + id;
    assert name == stem + ".json";
    assert name[|name| - 5..] == ".json";
    assert name[..|name| - 5] == stem;
    var r := LastIndexOf(stem, '_');
    assert stem[|session|] == '_';
    assert forall j :: |session| < j < |stem| ==> stem[j] == id[j - |session| - 1];
    assert r == Some(|session|);
    assert stem[..|session|] == session && stem[|session| + 1..] == id;
  }

  /** Hence a file name determines both the session and the id, so files of
      different sessions never collide either. */
  lemma FileNameInjective(s1: string, id1: string, s2: string, id2: string)
    requires NoUnderscore(id1) && NoUnderscore(id2)
    requires FileName(s1, id1) == FileName(s2, id2)
    ensures s1 == s2 && id1 == id2
  {
    ParseFileNameRoundTrip(s1, id1);
    ParseFileNameRoundTrip(s2, id2);
  }

  /** Under canonical naming, cleanup removes exactly the expired command
      files (strictly older than now minus the retention window) and keeps
      every other file, including those at the cutoff. */
  lemma CleanupDeletesExactlyExpired(s: Store, now: int)
    requires s.config.retentionDays > 0
    requires s.commands.Present? && Canonical(s.commands.files)
    ensures var files := s.commands.files;
      var after := Cleanup(s, now).commands.files;
      forall k :: k in files ==> (k in after <==> !Expired(files, k, Cutoff(s.config, now)))
  {
  }

  /** Cleanup keeps canonical naming. */
  lemma CleanupKeepsCanonical(s: Store, now: int)
    requires s.commands.Present? && Canonical(s.commands.files)
    ensures Cleanup(s, now).commands.Present? && Canonical(Cleanup(s, now).commands.files)
  {
  }

  /** Saving a command keeps canonical naming: the entry goes under its own name. */
  lemma SaveCommandKeepsCanonical(s: Store, e: CommandEntry, now: int, writeFails: bool)
    requires s.commands.Present? && Canonical(s.commands.files)
    ensures SaveCommand(s, e, now, writeFails).commands.Present?
    ensures Canonical(SaveCommand(s, e, now, writeFails).commands.files)
  {
  }

  /** The cleanup that follows a save never removes the entry just saved when
      it is no older than the cutoff; every other surviving file is untouched. */
  lemma SavedCommandSurvives(s: Store, e: CommandEntry, now: int)
    requires s.commands.Present? && Canonical(s.commands.files)
    requires s.config.retentionDays > 0 ==> e.timestamp >= Cutoff(s.config, now)
    ensures var r := SaveCommand(s, e, now, false);
      r.commands.Present? && FileName(e.sessionId, e.id) in r.commands.files
      && r.commands.files[FileName(e.sessionId, e.id)] == Readable(e)
  {
  }

  /** With retention on, a save writes the entry and then removes exactly the
      expired files: the new entry itself when it is already older than the
      cutoff, and every other file that was expired. Every surviving file
      other than the one written is unchanged. */
  lemma SaveCommandRemovesExpired(s: Store, e: CommandEntry, now: int)
    requires s.commands.Present? && Canonical(s.commands.files)
    requires s.config.retentionDays > 0
    ensures var name := FileName(e.sessionId, e.id);
      var files := s.commands.files;
      var cutoff := Cutoff(s.config, now);
      var r := SaveCommand(s, e, now, false);
      && r.commands.Present?
      && (name in r.commands.files <==> e.timestamp >= cutoff)
      && (name in r.commands.files ==> r.commands.files[name] == Readable(e))
      && (forall k :: k != name ==> (k in r.commands.files <==> k in files && !Expired(files, k, cutoff)))
      && (forall k :: k != name && k in r.commands.files ==> r.commands.files[k] == files[k])
  {
    var name := FileName(e.sessionId, e.id);
    var files := s.commands.files;
    var cutoff := Cutoff(s.config, now);
    var written := s.(commands := Present(files[name := Readable(e)]));
    assert Canonical(written.commands.files);
    CleanupDeletesExactlyExpired(written, now);
    forall k | k != name && k in files
      ensures Expired(written.commands.files, k, cutoff) == Expired(files, k, cutoff)
    {
      assert written.commands.files[k] == files[k];
    }
  }

  /** Round trip: a saved command that survives cleanup is read back by an
      unfiltered `getEntries`, whatever order the directory is listed in. */
  lemma SaveThenGetEntries(s: Store, e: CommandEntry, now: int, listing: seq<string>)
    requires s.commands.Present? && Canonical(s.commands.files)
    requires s.config.retentionDays > 0 ==> e.timestamp >= Cutoff(s.config, now)
    requires Enumerates(listing, SaveCommand(s, e, now, false).commands.files)
    ensures e in GetEntries(SaveCommand(s, e, now, false), listing, None)
  {
    SavedCommandSurvives(s, e, now);
    var name := FileName(e.sessionId, e.id);
    assert IsJsonName(name) by {
      assert name[|name| - 5..] == ".json";
    }
  }

  /** A saved command entry older than the cutoff is the file the next
      cleanup removes: cleanup rebuilds the same name the save used. */
  lemma CleanupRemovesSavedFile(s: Store, e: CommandEntry, now: int)
    requires s.config.retentionDays > 0 && s.commands.Present?
    requires FileName(e.sessionId, e.id) in s.commands.files
    requires s.commands.files[FileName(e.sessionId, e.id)] == Readable(e)
    requires e.timestamp < Cutoff(s.config, now)
    ensures FileName(e.sessionId, e.id) !in Cleanup(s, now).commands.files
  {
  }

  /** Saving a response never deletes anything: every response file stays,
      and the commands directory is not touched. */
  lemma SaveResponseKeepsFiles(s: Store, e: ResponseEntry, writeFails: bool)
    requires s.responses.Present?
    ensures var r := SaveResponse(s, e, writeFails);
      r.commands == s.commands && r.responses.Present?
      && forall k :: k in s.responses.files ==> k in r.responses.files
  {
  }

  /** Without a filter, and with a filter that sets nothing, every readable
      `.json` entry is returned. */
  lemma UnfilteredGetEntriesReturnsAll(s: Store, listing: seq<string>, x: CommandEntry)
    requires s.commands.Present? && Enumerates(listing, s.commands.files)
    ensures var empty := Some(CommandFilter(None, None, None));
      (x in GetEntries(s, listing, None) <==> exists k :: k in s.commands.files && IsJsonName(k) && s.commands.files[k] == Readable(x))
      && (x in GetEntries(s, listing, empty) <==> x in GetEntries(s, listing, None))
  {
  }

  /** A missing directory reads as empty, whatever the filter. */
  lemma MissingDirectoryReadsEmpty(s: Store, listing: seq<string>, f: Option<CommandFilter>, g: Option<ResponseFilter>)
    requires s.commands.Absent? && s.responses.Absent?
    ensures GetEntries(s, listing, f) == [] && GetResponses(s, listing, g) == []
  {
  }

  /** A command filter keeps an entry exactly when it has the filter's
      session, unless that is empty, and its timestamp lies within both
      bounds, the bounds included. */
  lemma FilteredGetEntries(s: Store, listing: seq<string>, session: string, from: int, to: int, x: CommandEntry)
    requires s.commands.Present? && Enumerates(listing, s.commands.files)
    ensures var f := Some(CommandFilter(Some(session), Some(from), Some(to)));
      x in GetEntries(s, listing, f) <==>
        (exists k :: k in s.commands.files && IsJsonName(k) && s.commands.files[k] == Readable(x))
        && (session != "" ==> x.sessionId == session) && from <= x.timestamp <= to
  {
  }

  /** A response filter on the command id keeps exactly the responses to that
      command; an empty command id keeps every response. */
  lemma FilteredGetResponses(s: Store, listing: seq<string>, commandId: string, x: ResponseEntry)
    requires s.responses.Present? && Enumerates(listing, s.responses.files)
    ensures var f := Some(ResponseFilter(None, Some(commandId), None, None));
      x in GetResponses(s, listing, f) <==>
        (exists k :: k in s.responses.files && IsJsonName(k) && s.responses.files[k] == Readable(x))
        && (commandId != "" ==> x.commandId == commandId)
  {
  }
}

=== FILE: wrappers.dfy ===
/** Small failure-carrying datatypes shared by the other modules. */
module Wrappers {

  /** An optional value: a missing key, an absent setting. */
  datatype Option<+T> = None | Some(value: T)

  /** The outcome of a call that may throw: `Threw` stands for a caught exception. */
  datatype Result<+T> = Ok(value: T) | Threw(reason: string)
}
